=== FILE: README.md ===
# yew-charts core in Dafny

This project models the two parts of yew-charts that turn chart drawings into a
Yew virtual-DOM tree:

- **The event-stream tree builder.** Both `ChartComponent::view` functions
  (`src/chart.rs` and `src/lib.rs`) turn the event stream of a parsed SVG
  document into a tree of `VTag`s. They use a stack of open elements, seeded with
  a synthetic `svg` root.
  - The `chart.rs` view sorts each start tag's attributes by name. When the
    component has an `on_hover` callback, it attaches a mouse-over listener to
    start-tag elements of class `scatter-point`. Self-closing elements never get
    one. Its root fills its container and carries a `viewBox`.
  - The `lib.rs` view keeps attributes in arrival order and attaches no
    listeners. Its root is a fixed 800×600 `svg`.
  - "Arrival order" is the order in which `attrs.iter()` walks the parser's
    attribute map. That map is also queried by name (`attrs.get("class")`), so
    the order need not be the order in the document. The model takes it as an
    arbitrary input. The same order is kept for self-closing tags in both views.
- **The `VTagWrapper` drawing backend** (`src/utils.rs`). It draws the plotters
  primitives as SVG child elements: pixel, line, rectangle, path, circle,
  polygon, text and bitmap.

Modules, one per file:

| module | file | contents |
|---|---|---|
| `Results` | results.dfy | `Option` and `Result` |
| `TextFormat` | text_format.dfy | `i32` coordinates, decimal and `#RRGGBB` rendering with their parsers, join and split, point lists |
| `VDom` | vdom.dfy | `Tag`/`Node`, the insertion-ordered attribute map, `add_attribute`, `add_attributes`, `add_child` |
| `AttrSort` | attr_sort.dfy | Rust's string order and the attribute sort |
| `EventTree` | event_tree.dfy | one event's effect on the stack (`Step`), the loop (`Run`), depth accounting, a recursive reference reading of the stream (`Items`), the listener rule |
| `Views` | views.dfy | both view functions, with their roots and configurations |
| `Backend` | backend.dfy | the backend primitives, a dispatch over them (`Draw`) and a drawing sequence (`Replay`) |

The panics of the view loop (`unwrap`/`expect` on an empty stack) are errors of
the `Fatal` datatype. Backend errors are `DrawError`. Every attribute value is
stored as the string the `html!` macro would produce. Integers are rendered in
decimal. Colours are rendered as `#RRGGBB` with upper-case hex digits. Each
rendering comes with a parser and a proved round trip, so contracts can say
"reads back as".

## Model

| member | source | states |
|---|---|---|
| TextFormat.SvgColor | src/utils.rs:30-33 | The colour text is `#` followed by six upper-case hex digits, and it reads back as exactly the three channels. |
| TextFormat.DecimalRoundTrip | src/utils.rs:120-129 | An integer attribute value reads back as the integer it was written from. |
| TextFormat.DecimalParseCanonical | src/utils.rs:120-129 | Only the canonical decimal text of an integer parses to it, so the rendering is one-to-one. |
| TextFormat.SplitJoin | src/utils.rs:197-201 | Splitting a space-joined list gives back the pieces, when no piece contains a space. |
| TextFormat.PointRoundTrip | src/utils.rs:197-201 | A point's `x,y` text reads back as the point. |
| TextFormat.ParsePointsRoundTrip | src/utils.rs:150-153 | A list of prefixed point tokens reads back as the points, in order. |
| VDom.SetAttribute | src/chart.rs:92-101 | Setting an attribute adds its name to the map's names. A new name is appended at the end, keeping insertion order. |
| VDom.SetAttributeLookup | src/chart.rs:92-101 | After setting, the name reads back the new value and every other name reads back what it did before. |
| VDom.LookupMember | src/chart.rs:118 | In a map with no repeated names, a lookup finds a value exactly when that pair is stored. |
| VDom.AddAttributesKeepsOrder | src/lib.rs:94-98 | Adding attributes with fresh names to an element appends them in the order given. |
| VDom.AddChild | src/chart.rs:110-112 | A child is appended as the last child, and nothing else about the element changes. |
| AttrSort.SortByKey | src/chart.rs:119-124 | The sorted attributes are strictly increasing by name under Rust's string order, and are a permutation of the input with the same names. |
| AttrSort.SortIgnoresArrivalOrder | src/chart.rs:119-124 | Two attribute maps with the same pairs, in any arrival order, sort to the same list. |
| AttrSort.SortKeepsLookups | src/chart.rs:119-124 | Sorting never changes the value found under any name. |
| EventTree.OpenTag | src/chart.rs:115-131 | A start tag opens an element with the same name, no children and the same pairs, sorted when so configured. It has a listener exactly when hovering is enabled and its `class` is `scatter-point`. |
| EventTree.EmptyElement | src/chart.rs:133-145 | A self-closing tag adds an element with its attributes unsorted, no children and no listener. |
| EventTree.Step | src/chart.rs:104-159 | Each event's effect on the stack. A start tag pushes. An end tag pops the top into its parent, and fails on a stack of size 0 or 1. A self-closing tag or text is appended to the top, whose name, attributes and listener stay as they were. Diagnostics change nothing. The bottom entry always keeps its name, attributes and listener. |
| EventTree.RunAccounting | src/chart.rs:102-160 | The loop succeeds exactly when no prefix of the stream closes more elements than it opened. The stack then ends `Depth(events)` entries deeper, and the only possible failure is popping the root. |
| EventTree.SingleRootIffBalanced | src/chart.rs:102-161 | From a single root, the loop ends with exactly one element on the stack if and only if every start tag is closed and no end tag closes the root. |
| EventTree.RunFollowsItems | src/chart.rs:104-160 | The stack loop agrees with an independent recursive reading of the stream: it appends exactly the nodes that reading finds, in order, to the current top. |
| EventTree.BalancedBuildsItems | src/chart.rs:102-161 | On a balanced stream the root ends up holding every top-level node after its own children, each element nesting exactly what its tags enclose. |
| EventTree.RunKeepsListenersJustified | src/chart.rs:125-130 | Every listener anywhere in the tree sits on a `scatter-point` element, and only when hovering is enabled. |
| EventTree.DiagnosticsAreInert | src/chart.rs:155-158 | Parse errors, comments, declarations and instructions do not affect the result: the loop gives the same outcome without them. |
| Views.Render | src/chart.rs:102-162 | The view succeeds exactly when the stream never closes the root. Its only failure is popping the root. On a balanced stream it returns the root holding the stream's top-level nodes. |
| Views.ChartRootAttributes | src/chart.rs:91-101 | The `chart.rs` root is an `svg` with no children or listener, and exactly the names width, height, viewBox and preserveAspectRatio. These read `100%`, `100%`, the view box and `none`. |
| Views.ViewBoxReadsBack | src/chart.rs:94-100 | The view box splits into four numbers that read back as min_x, min_y, width and height, in that order. |
| Views.ChartListenersOnlyOnScatterPoints | src/chart.rs:118-130 | In any tree the `chart.rs` view returns, listeners sit only on `scatter-point` elements, and there are none without an `on_hover` callback. |
| Views.UnclosedStreamReturnsInnermost | src/chart.rs:102-162 | For every stream that never closes the root but leaves elements open, the view returns the innermost open element — the top of a stack `Depth(events)` entries above the root — and not the root. |
| Views.LibRootAttributes | src/lib.rs:74-76 | The `lib.rs` root has only the names width and height, no view box, and they read back as 800 and 600. |
| Views.LibKeepsArrivalOrder | src/lib.rs:91-99 | The `lib.rs` view keeps start-tag attributes in arrival order (the parser map's iteration order, not necessarily document order) and attaches no listener. |
| Views.LibHasNoListeners | src/lib.rs:78-128 | No element of a tree the `lib.rs` view returns carries a listener. |
| Backend.CanvasSizeIsFixed | src/utils.rs:49-51 | The canvas size the backend reports does not depend on the wrapped element or on what has been drawn into it, and is 800 by 600. |
| Backend.DrawPixel | src/utils.rs:61-82 | A pixel never fails. A fully transparent one leaves the children unchanged; otherwise exactly one element is appended. |
| Backend.PixelIsUnitSquare | src/utils.rs:70-80 | The pixel is an unstroked 1×1 `rect` at the point, with the colour's opacity, filled with the colour. It has no children and exactly the seven attributes x, y, width, height, stroke, opacity and fill. |
| Backend.DrawLine | src/utils.rs:84-103 | A line always appends exactly one element, whatever its opacity. |
| Backend.LineAsWritten | src/utils.rs:90-100 | As written, `y2` reads back as the first point's `y`. The width sits under `stroke_width`, and `stroke-width` is absent. Opacity and stroke colour come from the style. The childless `line` has exactly the names opacity, stroke, stroke_width, x1, y1, x2 and y2. |
| Backend.LineDropsEndPointY | src/utils.rs:95-98 | A line from (0,0) to (0,1) is written with `y2 = 0`, not 1. |
| Backend.DrawLineCorrected | src/utils.rs:84-103 | The corrected line also always appends exactly one element. |
| Backend.LineCorrectedEndPoints | src/utils.rs:90-100 | The corrected line's end points read back as both given points, and its `stroke-width` reads back as the style's width. The childless `line` has exactly the names opacity, stroke, stroke-width, x1, y1, x2 and y2. |
| Backend.WrapI32 | src/utils.rs:113-114 | The `i32` difference equals the exact one when that fits, and always agrees with it modulo 2^32. |
| Backend.DrawRect | src/utils.rs:105-132 | A rectangle always appends exactly one element. |
| Backend.RectPlacement | src/utils.rs:112-125 | The `rect` sits at the upper-left corner, with the `i32` differences of the corners as width and height. It has no children and exactly the names x, y, width, height, opacity, fill and stroke. |
| Backend.RectExtentExact | src/utils.rs:113-114 | When the differences fit in `i32`, width and height read back as the exact differences of the corners. |
| Backend.RectPaint | src/utils.rs:115-128 | The colour goes to exactly the attribute that `fill` selects: fill when filled, stroke otherwise. The other attribute is `none`. |
| Backend.PaintExclusive | src/utils.rs:115-119 | Of fill and stroke, exactly one is `none`. |
| Backend.DrawCircle | src/utils.rs:167-190 | A circle always appends exactly one element. |
| Backend.CircleAttributes | src/utils.rs:174-187 | The `circle` has the given centre and radius, the style's opacity, and paints like a rectangle. It has no children and exactly the names cx, cy, r, stroke, fill and opacity. |
| Backend.DrawPath | src/utils.rs:134-165 | A fully transparent path does nothing, checked first. Otherwise an empty path fails with `NotEnoughPoints`, and a non-empty one appends exactly one element. |
| Backend.PathDataRoundTrip | src/utils.rs:146-154 | The `d` attribute reads back as exactly the path's points, in order, for any non-empty path. |
| Backend.PathAttributes | src/utils.rs:155-163 | The `path` traces the points, is unfilled, and has the style's opacity, colour and stroke width. It has no children and exactly the names d, fill, opacity, stroke and stroke-width. |
| Backend.DrawText | src/utils.rs:213-282 | Text never fails. Fully transparent text leaves the children unchanged; otherwise exactly one element is appended. |
| Backend.TextPlacement | src/utils.rs:263-279 | The `text` element holds the string as its only child and sits at the point. Its names are exactly x, y, dy, text-anchor, font-family, font-size, opacity, fill, font-weight, font-style and transform. |
| Backend.TextAnchoring | src/utils.rs:225-236 | `text-anchor` and `dy` name the style's horizontal and vertical position, and read back as them. |
| Backend.TextFont | src/utils.rs:238-274 | Font family, size, opacity and colour come from the style. Bold text has `font-weight` `bold` and `font-style` `normal`. Other text has `font-weight` `normal` and `font-style` naming the style (`normal`, `oblique` or `italic`). The two font attributes together read back as the font style. |
| Backend.RotationRoundTrip | src/utils.rs:248-260 | A rotated font writes `rotate(d, x, y)`, which reads back as the angle and the anchor point. An unrotated font writes nothing. |
| Backend.TextRotation | src/utils.rs:248-275 | The `transform` attribute is empty for unrotated text, and otherwise rotates about the text's own point by the font's angle. |
| Backend.FillPolygon | src/utils.rs:192-211 | A polygon always appends exactly one element, even with no vertices. |
| Backend.PolygonPointsRoundTrip | src/utils.rs:197-201 | The `points` attribute reads back as exactly the vertices, in order. |
| Backend.PolygonAttributes | src/utils.rs:203-209 | The `polygon` lists the vertices, is filled with the colour at the style's opacity, and has no stroke attribute. It has no children and exactly the names points, opacity and fill. |
| Backend.BlitBitmap | src/utils.rs:284-311 | A bitmap fails with `PngError` exactly when encoding fails. Otherwise exactly one element is appended. |
| Backend.BitmapAttributes | src/utils.rs:302-309 | The `image` sits at the point, and its `href` is the PNG data-URL prefix followed by the encoded payload. It has no children and exactly the names x, y and href. |
| Backend.Draw | src/utils.rs:46-312 | Drawing one primitive fails exactly for an empty visible path or a failed encoding, and never with `Unknown`. On success it keeps the existing children and appends at most one. |
| Backend.DrawAddsUnlessInvisible | src/utils.rs:46-312 | A successful primitive adds nothing exactly when it is a fully transparent pixel, path or text; otherwise it adds one element. |
| Backend.DrawIgnoresEarlierChildren | src/utils.rs:46-312 | What a primitive adds does not depend on the children already present. |
| Backend.Replay | src/utils.rs:46-312 | A drawing sequence keeps the existing children, adds at most one element per primitive, and never fails with `Unknown`. |
| Backend.ReplayFailsIffSomeFails | src/utils.rs:46-312 | A drawing sequence fails exactly when one of its primitives fails. |
| Backend.ReplayIgnoresEarlierChildren | src/utils.rs:46-312 | Replaying a sequence onto any children adds exactly what it adds onto none: the backend only ever appends. |

## Left out

- Chart generation in `create` is not modelled: scales, series view, `Chart::to_svg`. Neither is the SVG text round trip through `svg::read`. The view functions take the parser's event stream as their input.
- The Yew component lifecycle (`update`, `change`, `ComponentLink`) is not modelled. The hover listener is a boolean flag on the element, because its payload belongs to the framework.
- `ConsoleService` logging is not modelled: it has no effect on the tree. Diagnostic events are kept, and `EventTree.DiagnosticsAreInert` proves they change nothing.
- Yew's `VTag` attribute container is not part of this model. It is assumed to be an insertion-ordered map where a new value replaces the old one in place. The parser's attribute map arrives without repeated names.
- `Views.UnclosedStreamReturnsInnermost`: the final `stack.pop().unwrap()` returns the innermost open element when the stream leaves one open. This is modelled as written.
- Floating point is not modelled. A colour's alpha is a flag for "exactly 0.0" plus the text the macro writes for it. The font size is opaque text, including the division by 1.24.
- PNG and base64 encoding are not modelled. Whether the encoder succeeds, and the encoded payload, are parameters of `Backend.BlitBitmap`. The image size and pixel data are dropped, and no `width`/`height` is written, as in the source.
- `ensure_prepared` and `present` are not modelled: they do nothing. The same goes for `make_style`, which nothing calls, and for `set_panic_hook` and the `wee_alloc` allocator.
- Backend.WrapI32: `i32` subtraction wraps modulo 2^32, as in a release build. A debug build would panic on overflow instead.
- Backend.Draw: dispatches lines to the corrected line (see Findings). The as-written line is kept as `Backend.DrawLine`.
- Backend.TextFont: font families and style names are plain strings. Font loading and metrics belong to plotters.
- Elements written with the `html!` macro are modelled with distinct attribute names, as each of them is. Nested `VTag` children are kept as values, not references.

## Findings

| source | as written | input that shows it | evidently intended | confidence | as-written member | corrected member |
|---|---|---|---|---|---|---|
| src/utils.rs:98 | `y2` is set to `from.1`, the first point's `y` | a line from (0,0) to (0,1) is written with `y2 = 0`, so it draws horizontally | `y2 = to.1`, so the line ends at the second point | high; not executed | Backend.LineDropsEndPointY | Backend.LineCorrectedEndPoints |
| src/utils.rs:94 | the width is written under the attribute name `stroke_width` | any line: its `stroke-width` attribute is absent, so SVG uses the default width | `stroke-width`, as `draw_path` writes it | high; not executed | Backend.LineAsWritten | Backend.LineCorrectedEndPoints |

=== FILE: attr_sort.dfy ===
/**
 * Sorting attribute lists by name, as `chart.rs` does for every start tag so
 * that the same element always carries its attributes in the same order.
 */
module AttrSort {
  import opened VDom

  /**
   * Rust's `Ord` on `String`: lexicographic, shorter prefix first. Comparing
   * characters by code point agrees with comparing their UTF-8 bytes.
   */
  predicate Less(a: string, b: string)
    decreases |a|
  {
    if a == [] then b != []
    else b != [] && (a[0] < b[0] || (a[0] == b[0] && Less(a[1..], b[1..])))
  }

  lemma {:induction false} LessIrreflexive(a: string)
    ensures !Less(a, a)
    decreases |a|
  {
    if a != [] {
      LessIrreflexive(a[1..]);
    }
  }

  lemma {:induction false} LessTransitive(a: string, b: string, c: string)
    requires Less(a, b) && Less(b, c)
    ensures Less(a, c)
    decreases |a|
  {
    if a != [] && a[0] == b[0] && b[0] == c[0] {
      LessTransitive(a[1..], b[1..], c[1..]);
    }
  }

  lemma {:induction false} LessTotal(a: string, b: string)
    requires a != b
    ensures Less(a, b) || Less(b, a)
    decreases |a|
  {
    if a != [] && b != [] && a[0] == b[0] {
      assert a == [a[0]] + a[1..] && b == [b[0]] + b[1..];
      LessTotal(a[1..], b[1..]);
    }
  }

  /** Names strictly increase along the list. */
  predicate SortedByKey(a: seq<Attr>) {
    forall i, j :: 0 <= i < j < |a| ==> Less(a[i].0, a[j].0)
  }

  lemma SortedUnique(a: seq<Attr>)
    requires SortedByKey(a)
    ensures UniqueKeys(a)
  {
    forall i, j | 0 <= i < j < |a|
      ensures a[i].0 != a[j].0
    {
      LessIrreflexive(a[i].0);
    }
  }

  /** Places `x` in front of the first entry whose name is greater. */
  function Insert(x: Attr, s: seq<Attr>): (r: seq<Attr>)
    ensures multiset(r) == multiset(s) + multiset{x}
    decreases |s|
  {
    if s == [] || Less(x.0, s[0].0) then
      [x] + s
    else
      assert s == [s[0]] + s[1..];
      [s[0]] + Insert(x, s[1..])
  }

  lemma {:induction false} InsertSorted(x: Attr, s: seq<Attr>)
    requires SortedByKey(s)
    requires x.0 !in Keys(s)
    ensures SortedByKey(Insert(x, s))
    decreases |s|
  {
    if s == [] {
    } else if Less(x.0, s[0].0) {
      var r := [x] + s;
      forall i, j | 0 <= i < j < |r|
        ensures Less(r[i].0, r[j].0)
      {
        if i == 0 && j > 1 {
          LessTransitive(x.0, s[0].0, s[j - 1].0);
        }
      }
    } else {
      KeysCons(s);
      assert x.0 != s[0].0;
      LessTotal(x.0, s[0].0);
      assert Less(s[0].0, x.0);
      InsertSorted(x, s[1..]);
      var rest := Insert(x, s[1..]);
      var r := [s[0]] + rest;
      forall i, j | 0 <= i < j < |r|
        ensures Less(r[i].0, r[j].0)
      {
        if i == 0 {
          var e := rest[j - 1];
          assert e in multiset(rest);
          if e != x {
            assert e in multiset(s[1..]);
            var k :| 0 <= k < |s[1..]| && s[1..][k] == e;
            assert s[k + 1] == e;
          }
        } else {
          assert r[i] == rest[i - 1] && r[j] == rest[j - 1];
        }
      }
    }
  }

  /** Insertion sort by attribute name (`sort_by` on the names). */
  function SortByKey(a: Attributes): (r: Attributes)
    ensures SortedByKey(r)
    ensures multiset(r) == multiset(a)
    ensures Keys(r) == Keys(a)
    decreases |a|
  {
    if a == [] then
      []
    else
      var rest := SortByKey(a[1..]);
      KeysCons(a);
      assert a[0].0 !in Keys(a[1..]) by {
        forall j | 1 <= j < |a|
          ensures a[0].0 != a[j].0
        {
        }
      }
      InsertSorted(a[0], rest);
      var r := Insert(a[0], rest);
      SortedUnique(r);
      assert a == [a[0]] + a[1..];
      MultisetKeys(r, a);
      r
  }

  /** Lists with the same entries have the same names. */
  lemma MultisetKeys(a: seq<Attr>, b: seq<Attr>)
    requires multiset(a) == multiset(b)
    ensures Keys(a) == Keys(b)
  {
    forall k | k in Keys(a)
      ensures k in Keys(b)
    {
      var i :| 0 <= i < |a| && a[i].0 == k;
      assert a[i] in multiset(b);
      var j :| 0 <= j < |b| && b[j] == a[i];
    }
    forall k | k in Keys(b)
      ensures k in Keys(a)
    {
      var i :| 0 <= i < |b| && b[i].0 == k;
      assert b[i] in multiset(a);
      var j :| 0 <= j < |a| && a[j] == b[i];
    }
  }

  /** Two sorted lists holding the same entries start with the same entry. */
  lemma SortedHeadsAgree(a: seq<Attr>, b: seq<Attr>)
    requires SortedByKey(a) && SortedByKey(b)
    requires multiset(a) == multiset(b)
    requires a != [] && b != []
    ensures a[0] == b[0]
  {
    assert a[0] in multiset(b);
    var j :| 0 <= j < |b| && b[j] == a[0];
    assert b[0] in multiset(a);
    var i :| 0 <= i < |a| && a[i] == b[0];
    if i != 0 {
      LessIrreflexive(a[0].0);
      if j != 0 {
        LessTransitive(a[0].0, a[i].0, b[j].0);
      }
      assert false;
    }
  }

  /** Two sorted lists holding the same entries are the same list. */
  lemma {:induction false} SortedPermutationUnique(a: seq<Attr>, b: seq<Attr>)
    requires SortedByKey(a) && SortedByKey(b)
    requires multiset(a) == multiset(b)
    ensures a == b
    decreases |a|
  {
    assert |a| == |multiset(a)| == |multiset(b)| == |b|;
    if a != [] {
      SortedHeadsAgree(a, b);
      assert a == [a[0]] + a[1..] && b == [b[0]] + b[1..];
      assert multiset(a[1..]) == multiset(a) - multiset{a[0]};
      assert multiset(b[1..]) == multiset(b) - multiset{b[0]};
      SortedPermutationUnique(a[1..], b[1..]);
    }
  }

  /**
   * Sorting forgets the arrival order: two attribute maps holding the same
   * pairs, in whatever order, sort to the same list.
   */
  lemma SortIgnoresArrivalOrder(a: Attributes, b: Attributes)
    requires multiset(a) == multiset(b)
    ensures SortByKey(a) == SortByKey(b)
  {
    SortedPermutationUnique(SortByKey(a), SortByKey(b));
  }

  /** Sorting keeps every lookup result. */
  lemma SortKeepsLookups(a: Attributes, key: string)
    ensures Lookup(SortByKey(a), key) == Lookup(a, key)
  {
    var s := SortByKey(a);
    LookupKeys(a, key);
    LookupKeys(s, key);
    if Lookup(a, key).Some? {
      var v := Lookup(a, key).value;
      LookupMember(a, key, v);
      assert (key, v) in multiset(s);
      LookupMember(s, key, v);
    }
  }
}

=== FILE: backend.dfy ===
/**
 * `VTagWrapper`, the plotters drawing backend that renders each primitive as
 * at most one SVG element appended to a yew element. The backend's whole
 * state is that element's child list, so every primitive is a function from
 * the child list to the extended list or an error.
 */
module Backend {
  import opened Results
  import opened TextFormat
  import opened VDom

  /** An unsigned 32-bit integer (radii, stroke widths, the canvas size). */
  type u32 = x: int | 0 <= x < 0x1_0000_0000

  /** `Error` in `utils.rs`; no primitive ever raises `Unknown`. */
  datatype DrawError = Unknown | NotEnoughPoints | PngError

  /**
   * An opacity. The source holds an `f64` and only ever compares it with
   * `0.0` or writes it out, so the model keeps the outcome of that comparison
   * and the text the value renders to.
   */
  datatype Alpha = Alpha(isZero: bool, shown: string)

  /** `RGBAColor`: three channels and an opacity. */
  datatype RGBAColor = RGBAColor(r: byte, g: byte, b: byte, alpha: Alpha)

  /** What a `BackendStyle` exposes to the backend: a colour and a stroke width. */
  datatype ShapeStyle = ShapeStyle(color: RGBAColor, strokeWidth: u32)

  /** Horizontal and vertical anchoring of a text (`HPos`, `VPos`). */
  datatype HPos = Left | Right | HCenter
  datatype VPos = Top | VCenter | Bottom

  datatype FontStyle = Normal | Oblique | Italic | Bold

  /** `FontTransform`; `NoRotation` is plotters' `FontTransform::None`. */
  datatype FontTransform = NoRotation | Rotate90 | Rotate180 | Rotate270

  /**
   * What `draw_text` reads from a `TextStyle`. The font size is a float the
   * source divides by 1.24 before writing it; `size` is that written text.
   */
  datatype TextStyle = TextStyle(
    family: string, size: string, style: FontStyle, transform: FontTransform,
    color: RGBAColor, hPos: HPos, vPos: VPos)

  /**
   * The outcome of PNG-encoding a bitmap and base64-encoding the result,
   * both done by libraries outside this model.
   */
  datatype PngEncoding = Encoded(base64: string) | EncodingFailed

  // ---------------------------------------------------------------------
  // Elements written by the `html!` macro
  // ---------------------------------------------------------------------

  /** The index of the last of the first `n` names equal to `key`, or -1. */
  function LastBelow(keys: seq<string>, key: string, n: nat): (i: int)
    requires n <= |keys|
    ensures -1 <= i < n
    ensures i >= 0 ==> keys[i] == key
    ensures forall j :: i < j < n ==> keys[j] != key
    decreases n
  {
    if n == 0 then -1
    else if keys[n - 1] == key then n - 1
    else LastBelow(keys, key, n - 1)
  }

  /**
   * No name occurs twice among the first `n`, checked one name at a time
   * so that the verifier can evaluate it on a constant list.
   *
   * Each element the backend writes has a constant list of attribute names,
   * and a `...KeysDistinct` lemma per list establishes `Distinct` by
   * evaluating this predicate on it and applying `DistinctNames`. The
   * eleven names of `text` are evaluated a few names at a time
   * (`TextKeysDistinctBelow3` up to `9`), because evaluating them in one
   * step is too costly for the verifier.
   */
  predicate DistinctBelow(keys: seq<string>, n: nat)
    requires n <= |keys|
    decreases n
  {
    n == 0 || (LastBelow(keys, keys[n - 1], n - 1) < 0 && DistinctBelow(keys, n - 1))
  }

  /**
   * No name occurs twice: `VDom.UniqueKeys` stated over the names alone,
   * before they are paired with values (see `ZipUnique`).
   */
  predicate Distinct(keys: seq<string>) {
    forall i, j :: 0 <= i < j < |keys| ==> keys[i] != keys[j]
  }

  lemma {:induction false} DistinctNames(keys: seq<string>, n: nat)
    requires n <= |keys| && DistinctBelow(keys, n)
    ensures forall i, j :: 0 <= i < j < n ==> keys[i] != keys[j]
    decreases n
  {
    if n > 0 {
      DistinctNames(keys, n - 1);
    }
  }

  /** The names paired with the values, position by position. */
  function Zip(keys: seq<string>, values: seq<string>): (a: seq<Attr>)
    requires |keys| == |values|
    ensures |a| == |keys|
    ensures forall i :: 0 <= i < |a| ==> a[i] == (keys[i], values[i])
  {
    seq(|keys|, i requires 0 <= i < |keys| => (keys[i], values[i]))
  }

  /** Pairing names with values gives a map without repeated names exactly when the names are distinct. */
  lemma ZipUnique(keys: seq<string>, values: seq<string>)
    requires |keys| == |values|
    ensures UniqueKeys(Zip(keys, values)) <==> Distinct(keys)
  {
  }

  /**
   * An SVG element as the `html!` macro builds it. Every element the backend
   * writes names each attribute once, so the map holds the pairs in the order
   * they are written.
   */
  function Svg(name: string, keys: seq<string>, values: seq<string>, children: seq<Node>): Node
    requires |keys| == |values| && Distinct(keys)
  {
    var a: Attributes := Zip(keys, values);
    Element(Tag(name, a, children, false))
  }

  /** The value of attribute `key` on an element node. */
  function AttrOf(n: Node, key: string): Option<string> {
    if n.Element? then Lookup(n.tag.attrs, key) else None
  }

  /** The element's attribute names are exactly `keys`, and its children are as given. */
  lemma SvgShape(name: string, keys: seq<string>, values: seq<string>, children: seq<Node>)
    requires |keys| == |values| && Distinct(keys)
    ensures var n := Svg(name, keys, values, children);
      && n.Element? && n.tag.name == name && n.tag.children == children
      && Keys(n.tag.attrs) == set k | k in keys
  {
  }

  /** Attribute `keys[i]` of the element holds `values[i]`. */
  lemma SvgAttr(name: string, keys: seq<string>, values: seq<string>, children: seq<Node>, i: nat)
    requires |keys| == |values| && Distinct(keys) && i < |keys|
    ensures AttrOf(Svg(name, keys, values, children), keys[i]) == Some(values[i])
  {
    var n := Svg(name, keys, values, children);
    assert n.tag.attrs[i] == (keys[i], values[i]);
    LookupMember(n.tag.attrs, keys[i], values[i]);
  }

  /** A name the element does not list is absent. */
  lemma SvgNoAttr(name: string, keys: seq<string>, values: seq<string>, children: seq<Node>, key: string)
    requires |keys| == |values| && Distinct(keys) && LastBelow(keys, key, |keys|) < 0
    ensures AttrOf(Svg(name, keys, values, children), key) == None
  {
    var n := Svg(name, keys, values, children);
    LookupKeys(n.tag.attrs, key);
    assert key !in Keys(n.tag.attrs);
  }

  /** Attribute `key` holds the decimal rendering of `v`, and so reads back as `v`. */
  predicate ReadsInt(n: Node, key: string, v: int) {
    AttrOf(n, key).Some? && ParseDecimal(AttrOf(n, key).value) == Some(v)
  }

  /** Attribute `key` holds a `#RRGGBB` colour that reads back as the channels of `c`. */
  predicate ReadsColor(n: Node, key: string, c: RGBAColor) {
    AttrOf(n, key).Some? && ParseSvgColor(AttrOf(n, key).value) == Some((c.r, c.g, c.b))
  }

  /** Attribute `keys[i]` holds the decimal rendering of `v`. */
  lemma SvgInt(name: string, keys: seq<string>, values: seq<string>, children: seq<Node>, i: nat, v: int)
    requires |keys| == |values| && Distinct(keys) && i < |keys|
    requires values[i] == Decimal(v)
    ensures ReadsInt(Svg(name, keys, values, children), keys[i], v)
  {
    SvgAttr(name, keys, values, children, i);
    DecimalRoundTrip(v);
  }

  /** `make_svg_color` applied to a colour. */
  function ColorText(c: RGBAColor): string {
    SvgColor(c.r, c.g, c.b)
  }

  /** A colour never renders as the keyword `none`. */
  lemma ColorIsNotNone(c: RGBAColor)
    ensures ColorText(c) != "none"
  {
    assert |ColorText(c)| == 7;
  }

  // ---------------------------------------------------------------------
  // get_size
  // ---------------------------------------------------------------------

  /** `get_size` of a backend wrapping element `t`: the canvas size reported to plotters. */
  function CanvasSize(t: Tag): (u32, u32) {
    (800, 600)
  }

  /**
   * The reported size is fixed: it is the same whatever element the backend
   * wraps and whatever has been drawn into it, and it is 800 by 600.
   */
  lemma CanvasSizeIsFixed(a: Tag, b: Tag)
    ensures CanvasSize(a) == CanvasSize(b)
    ensures CanvasSize(a).0 == 800 && CanvasSize(a).1 == 600
  {
  }

  // ---------------------------------------------------------------------
  // draw_pixel
  // ---------------------------------------------------------------------

  const PixelKeys: seq<string> := ["x", "y", "width", "height", "stroke", "opacity", "fill"]

  lemma PixelKeysDistinct()
    ensures Distinct(PixelKeys)
  {
    assert DistinctBelow(PixelKeys, 1);
    assert DistinctBelow(PixelKeys, 2);
    assert DistinctBelow(PixelKeys, 3);
    assert DistinctBelow(PixelKeys, 4);
    assert DistinctBelow(PixelKeys, 5);
    assert DistinctBelow(PixelKeys, 6);
    DistinctNames(PixelKeys, |PixelKeys|);
  }

  function PixelNode(p: Coord, c: RGBAColor): Node {
    PixelKeysDistinct();
    Svg("rect", PixelKeys, [Decimal(p.x), Decimal(p.y), "1", "1", "none", c.alpha.shown, ColorText(c)], [])
  }

  /** `draw_pixel`: a one-by-one `rect`, or nothing for a fully transparent colour. */
  function DrawPixel(children: seq<Node>, p: Coord, c: RGBAColor): (r: Result<seq<Node>, DrawError>)
    ensures r.Ok?
    ensures c.alpha.isZero ==> r.value == children
    ensures !c.alpha.isZero ==> |r.value| == |children| + 1 && r.value[..|children|] == children
  {
    if c.alpha.isZero then Ok(children) else Ok(children + [PixelNode(p, c)])
  }

  /** The appended element is an unstroked unit square at the point, filled with the colour. */
  lemma PixelIsUnitSquare(children: seq<Node>, p: Coord, c: RGBAColor)
    requires !c.alpha.isZero
    ensures var n := DrawPixel(children, p, c).value[|children|];
      && n.Element? && n.tag.name == "rect" && n.tag.children == []
      && ReadsInt(n, "x", p.x) && ReadsInt(n, "y", p.y)
      && ReadsInt(n, "width", 1) && ReadsInt(n, "height", 1)
      && AttrOf(n, "stroke") == Some("none")
      && AttrOf(n, "opacity") == Some(c.alpha.shown)
      && ReadsColor(n, "fill", c)
      && Keys(n.tag.attrs) == {"x", "y", "width", "height", "stroke", "opacity", "fill"}
  {
    var n := PixelNode(p, c);
    var values := [Decimal(p.x), Decimal(p.y), "1", "1", "none", c.alpha.shown, ColorText(c)];
    assert DrawPixel(children, p, c).value[|children|] == n;
    SvgAttr("rect", PixelKeys, values, [], 0);
    SvgAttr("rect", PixelKeys, values, [], 1);
    SvgAttr("rect", PixelKeys, values, [], 2);
    SvgAttr("rect", PixelKeys, values, [], 3);
    SvgAttr("rect", PixelKeys, values, [], 4);
    SvgAttr("rect", PixelKeys, values, [], 5);
    SvgAttr("rect", PixelKeys, values, [], 6);
    SvgShape("rect", PixelKeys, values, []);
    DecimalRoundTrip(p.x);
    DecimalRoundTrip(p.y);
    assert "1" == Decimal(1);
    DecimalRoundTrip(1);
  }

  // ---------------------------------------------------------------------
  // draw_line
  // ---------------------------------------------------------------------

  /** The names `draw_line` writes, spelled as in the source. */
  const LineKeys: seq<string> := ["opacity", "stroke", "stroke_width", "x1", "y1", "x2", "y2"]

  lemma LineKeysDistinct()
    ensures Distinct(LineKeys)
  {
    assert DistinctBelow(LineKeys, 1);
    assert DistinctBelow(LineKeys, 2);
    assert DistinctBelow(LineKeys, 3);
    assert DistinctBelow(LineKeys, 4);
    assert DistinctBelow(LineKeys, 5);
    assert DistinctBelow(LineKeys, 6);
    DistinctNames(LineKeys, |LineKeys|);
  }

  /** The `line` element as written: the second end point takes the first one's `y`. */
  function LineNode(from: Coord, to: Coord, s: ShapeStyle): Node {
    LineKeysDistinct();
    Svg("line", LineKeys,
        [s.color.alpha.shown, ColorText(s.color), Decimal(s.strokeWidth),
         Decimal(from.x), Decimal(from.y), Decimal(to.x), Decimal(from.y)], [])
  }

  /** `draw_line` as written: always one `line`, whatever the opacity. */
  function DrawLine(children: seq<Node>, from: Coord, to: Coord, s: ShapeStyle): (r: Result<seq<Node>, DrawError>)
    ensures r.Ok? && |r.value| == |children| + 1 && r.value[..|children|] == children
  {
    Ok(children + [LineNode(from, to, s)])
  }

  /**
   * As written, the line's second end point has the first end point's `y`,
   * and its stroke width sits under a name SVG does not know.
   */
  lemma LineAsWritten(children: seq<Node>, from: Coord, to: Coord, s: ShapeStyle)
    ensures var n := DrawLine(children, from, to, s).value[|children|];
      && n.Element? && n.tag.name == "line" && n.tag.children == []
      && Keys(n.tag.attrs) == {"opacity", "stroke", "stroke_width", "x1", "y1", "x2", "y2"}
      && ReadsInt(n, "x1", from.x) && ReadsInt(n, "y1", from.y)
      && ReadsInt(n, "x2", to.x) && ReadsInt(n, "y2", from.y)
      && ReadsInt(n, "stroke_width", s.strokeWidth)
      && AttrOf(n, "stroke-width") == None
      && AttrOf(n, "opacity") == Some(s.color.alpha.shown)
      && ReadsColor(n, "stroke", s.color)
  {
    var values := [s.color.alpha.shown, ColorText(s.color), Decimal(s.strokeWidth),
                   Decimal(from.x), Decimal(from.y), Decimal(to.x), Decimal(from.y)];
    LineKeysDistinct();
    assert DrawLine(children, from, to, s).value[|children|] == Svg("line", LineKeys, values, []);
    SvgAttr("line", LineKeys, values, [], 0);
    SvgAttr("line", LineKeys, values, [], 1);
    SvgAttr("line", LineKeys, values, [], 2);
    SvgAttr("line", LineKeys, values, [], 3);
    SvgAttr("line", LineKeys, values, [], 4);
    SvgAttr("line", LineKeys, values, [], 5);
    SvgAttr("line", LineKeys, values, [], 6);
    SvgNoAttr("line", LineKeys, values, [], "stroke-width");
    SvgShape("line", LineKeys, values, []);
    DecimalRoundTrip(s.strokeWidth);
    DecimalRoundTrip(from.x);
    DecimalRoundTrip(from.y);
    DecimalRoundTrip(to.x);
  }

  /** A line from (0, 0) to (0, 1) is drawn ending at (0, 0). */
  lemma LineDropsEndPointY()
    ensures var n := DrawLine([], Coord(0, 0), Coord(0, 1), ShapeStyle(RGBAColor(0, 0, 0, Alpha(false, "1")), 1)).value[0];
      ReadsInt(n, "y2", 0) && !ReadsInt(n, "y2", 1)
  {
    LineAsWritten([], Coord(0, 0), Coord(0, 1), ShapeStyle(RGBAColor(0, 0, 0, Alpha(false, "1")), 1));
  }

  const LineCorrectedKeys: seq<string> := ["opacity", "stroke", "stroke-width", "x1", "y1", "x2", "y2"]

  lemma LineCorrectedKeysDistinct()
    ensures Distinct(LineCorrectedKeys)
  {
    assert DistinctBelow(LineCorrectedKeys, 1);
    assert DistinctBelow(LineCorrectedKeys, 2);
    assert DistinctBelow(LineCorrectedKeys, 3);
    assert DistinctBelow(LineCorrectedKeys, 4);
    assert DistinctBelow(LineCorrectedKeys, 5);
    assert DistinctBelow(LineCorrectedKeys, 6);
    DistinctNames(LineCorrectedKeys, |LineCorrectedKeys|);
  }

  /** `draw_line` as evidently intended: both end points as given, and SVG's `stroke-width`. */
  function DrawLineCorrected(children: seq<Node>, from: Coord, to: Coord, s: ShapeStyle): (r: Result<seq<Node>, DrawError>)
    ensures r.Ok? && |r.value| == |children| + 1 && r.value[..|children|] == children
  {
    Ok(children + [LineCorrectedNode(from, to, s)])
  }

  /** The `line` element with both end points as given and the SVG name `stroke-width`. */
  function LineCorrectedNode(from: Coord, to: Coord, s: ShapeStyle): Node {
    LineCorrectedKeysDistinct();
    Svg("line", LineCorrectedKeys,
        [s.color.alpha.shown, ColorText(s.color), Decimal(s.strokeWidth),
         Decimal(from.x), Decimal(from.y), Decimal(to.x), Decimal(to.y)], [])
  }

  /** The corrected line runs between the two given points with the style's colour and width. */
  lemma LineCorrectedEndPoints(children: seq<Node>, from: Coord, to: Coord, s: ShapeStyle)
    ensures var n := DrawLineCorrected(children, from, to, s).value[|children|];
      && n.Element? && n.tag.name == "line" && n.tag.children == []
      && Keys(n.tag.attrs) == {"opacity", "stroke", "stroke-width", "x1", "y1", "x2", "y2"}
      && ReadsInt(n, "x1", from.x) && ReadsInt(n, "y1", from.y)
      && ReadsInt(n, "x2", to.x) && ReadsInt(n, "y2", to.y)
      && ReadsInt(n, "stroke-width", s.strokeWidth)
      && ReadsColor(n, "stroke", s.color)
      && AttrOf(n, "opacity") == Some(s.color.alpha.shown)
  {
    var values := [s.color.alpha.shown, ColorText(s.color), Decimal(s.strokeWidth),
                   Decimal(from.x), Decimal(from.y), Decimal(to.x), Decimal(to.y)];
    LineCorrectedKeysDistinct();
    assert DrawLineCorrected(children, from, to, s).value[|children|] == Svg("line", LineCorrectedKeys, values, []);
    SvgAttr("line", LineCorrectedKeys, values, [], 0);
    SvgAttr("line", LineCorrectedKeys, values, [], 1);
    SvgAttr("line", LineCorrectedKeys, values, [], 2);
    SvgAttr("line", LineCorrectedKeys, values, [], 3);
    SvgAttr("line", LineCorrectedKeys, values, [], 4);
    SvgAttr("line", LineCorrectedKeys, values, [], 5);
    SvgAttr("line", LineCorrectedKeys, values, [], 6);
    SvgShape("line", LineCorrectedKeys, values, []);
    DecimalRoundTrip(s.strokeWidth);
    DecimalRoundTrip(from.x);
    DecimalRoundTrip(from.y);
    DecimalRoundTrip(to.x);
    DecimalRoundTrip(to.y);
  }

  // ---------------------------------------------------------------------
  // draw_rect and draw_circle
  // ---------------------------------------------------------------------

  /**
   * `i32` subtraction as a release build performs it: wrapped into the
   * 32-bit range (a debug build would panic instead).
   */
  function WrapI32(v: int): (w: i32)
    ensures InI32(v) ==> w == v
    ensures (w - v) % 0x1_0000_0000 == 0
  {
    (v + 0x8000_0000) % 0x1_0000_0000 - 0x8000_0000
  }

  /** The `(fill, stroke)` pair: the colour goes to exactly one of them, the other is `none`. */
  function Paint(fill: bool, c: RGBAColor): (string, string) {
    if !fill then ("none", ColorText(c)) else (ColorText(c), "none")
  }

  const RectKeys: seq<string> := ["x", "y", "width", "height", "opacity", "fill", "stroke"]

  lemma RectKeysDistinct()
    ensures Distinct(RectKeys)
  {
    assert DistinctBelow(RectKeys, 1);
    assert DistinctBelow(RectKeys, 2);
    assert DistinctBelow(RectKeys, 3);
    assert DistinctBelow(RectKeys, 4);
    assert DistinctBelow(RectKeys, 5);
    assert DistinctBelow(RectKeys, 6);
    DistinctNames(RectKeys, |RectKeys|);
  }

  function RectValues(upperLeft: Coord, width: i32, height: i32, s: ShapeStyle, fill: bool): seq<string> {
    [Decimal(upperLeft.x), Decimal(upperLeft.y), Decimal(width), Decimal(height), s.color.alpha.shown,
     Paint(fill, s.color).0, Paint(fill, s.color).1]
  }

  function RectOf(upperLeft: Coord, width: i32, height: i32, s: ShapeStyle, fill: bool): Node {
    RectKeysDistinct();
    Svg("rect", RectKeys, RectValues(upperLeft, width, height, s, fill), [])
  }

  /** The extent is computed first (with `i32` arithmetic), then the element is written. */
  function RectNode(upperLeft: Coord, bottomRight: Coord, s: ShapeStyle, fill: bool): Node {
    RectOf(upperLeft, WrapI32(bottomRight.x - upperLeft.x), WrapI32(bottomRight.y - upperLeft.y), s, fill)
  }

  /** `draw_rect`: always one `rect`, whatever the opacity. */
  function DrawRect(children: seq<Node>, upperLeft: Coord, bottomRight: Coord, s: ShapeStyle, fill: bool): (r: Result<seq<Node>, DrawError>)
    ensures r.Ok? && |r.value| == |children| + 1 && r.value[..|children|] == children
  {
    Ok(children + [RectNode(upperLeft, bottomRight, s, fill)])
  }

  /** Fill and stroke exclude each other: the colour is on exactly the one `fill` selects. */
  predicate Painted(n: Node, fill: bool, c: RGBAColor) {
    && (fill ==> ReadsColor(n, "fill", c) && AttrOf(n, "stroke") == Some("none"))
    && (!fill ==> ReadsColor(n, "stroke", c) && AttrOf(n, "fill") == Some("none"))
  }

  /**
   * The rectangle starts at the upper-left corner and its extent is the
   * corner-to-corner difference, unclamped, so it may be negative.
   */
  lemma RectPlacement(children: seq<Node>, upperLeft: Coord, bottomRight: Coord, s: ShapeStyle, fill: bool)
    ensures var n := DrawRect(children, upperLeft, bottomRight, s, fill).value[|children|];
      && n.Element? && n.tag.name == "rect" && n.tag.children == []
      && Keys(n.tag.attrs) == {"x", "y", "width", "height", "opacity", "fill", "stroke"}
      && ReadsInt(n, "x", upperLeft.x) && ReadsInt(n, "y", upperLeft.y)
      && ReadsInt(n, "width", WrapI32(bottomRight.x - upperLeft.x))
      && ReadsInt(n, "height", WrapI32(bottomRight.y - upperLeft.y))
  {
    var w := WrapI32(bottomRight.x - upperLeft.x);
    var h := WrapI32(bottomRight.y - upperLeft.y);
    assert DrawRect(children, upperLeft, bottomRight, s, fill).value[|children|] == RectOf(upperLeft, w, h, s, fill);
    RectOfPlacement(upperLeft, w, h, s, fill);
    RectOfShape(upperLeft, w, h, s, fill);
  }

  lemma RectOfPlacement(upperLeft: Coord, width: i32, height: i32, s: ShapeStyle, fill: bool)
    ensures var n := RectOf(upperLeft, width, height, s, fill);
      && n.Element? && n.tag.name == "rect"
      && ReadsInt(n, "x", upperLeft.x) && ReadsInt(n, "y", upperLeft.y)
      && ReadsInt(n, "width", width) && ReadsInt(n, "height", height)
  {
    RectKeysDistinct();
    var values := RectValues(upperLeft, width, height, s, fill);
    assert values[..4] == [Decimal(upperLeft.x), Decimal(upperLeft.y), Decimal(width), Decimal(height)];
    SvgInt("rect", RectKeys, values, [], 0, upperLeft.x);
    SvgInt("rect", RectKeys, values, [], 1, upperLeft.y);
    SvgInt("rect", RectKeys, values, [], 2, width);
    SvgInt("rect", RectKeys, values, [], 3, height);
  }

  lemma RectOfShape(upperLeft: Coord, width: i32, height: i32, s: ShapeStyle, fill: bool)
    ensures var n := RectOf(upperLeft, width, height, s, fill);
      && n.Element? && n.tag.name == "rect" && n.tag.children == []
      && Keys(n.tag.attrs) == {"x", "y", "width", "height", "opacity", "fill", "stroke"}
  {
    RectKeysDistinct();
    SvgShape("rect", RectKeys, RectValues(upperLeft, width, height, s, fill), []);
  }

  /** Without overflow the extent is exactly the difference of the corners, negative or not. */
  lemma RectExtentExact(children: seq<Node>, upperLeft: Coord, bottomRight: Coord, s: ShapeStyle, fill: bool)
    requires InI32(bottomRight.x - upperLeft.x) && InI32(bottomRight.y - upperLeft.y)
    ensures var n := DrawRect(children, upperLeft, bottomRight, s, fill).value[|children|];
      && ReadsInt(n, "width", bottomRight.x - upperLeft.x)
      && ReadsInt(n, "height", bottomRight.y - upperLeft.y)
  {
    var w := WrapI32(bottomRight.x - upperLeft.x);
    var h := WrapI32(bottomRight.y - upperLeft.y);
    var n := DrawRect(children, upperLeft, bottomRight, s, fill).value[|children|];
    assert ReadsInt(n, "width", w) && ReadsInt(n, "height", h) by {
      RectPlacement(children, upperLeft, bottomRight, s, fill);
    }
    assert w == bottomRight.x - upperLeft.x;
    assert h == bottomRight.y - upperLeft.y;
  }

  /** The rectangle is painted by the `fill` flag and carries the colour's opacity. */
  lemma RectPaint(children: seq<Node>, upperLeft: Coord, bottomRight: Coord, s: ShapeStyle, fill: bool)
    ensures var n := DrawRect(children, upperLeft, bottomRight, s, fill).value[|children|];
      && AttrOf(n, "opacity") == Some(s.color.alpha.shown)
      && Painted(n, fill, s.color)
  {
    var w := WrapI32(bottomRight.x - upperLeft.x);
    var h := WrapI32(bottomRight.y - upperLeft.y);
    assert DrawRect(children, upperLeft, bottomRight, s, fill).value[|children|] == RectOf(upperLeft, w, h, s, fill);
    RectOfPaint(upperLeft, w, h, s, fill);
  }

  lemma RectOfPaint(upperLeft: Coord, width: i32, height: i32, s: ShapeStyle, fill: bool)
    ensures var n := RectOf(upperLeft, width, height, s, fill);
      && AttrOf(n, "opacity") == Some(s.color.alpha.shown)
      && Painted(n, fill, s.color)
  {
    RectKeysDistinct();
    var values := RectValues(upperLeft, width, height, s, fill);
    assert values[4..] == [s.color.alpha.shown, Paint(fill, s.color).0, Paint(fill, s.color).1];
    SvgAttr("rect", RectKeys, values, [], 4);
    SvgAttr("rect", RectKeys, values, [], 5);
    SvgAttr("rect", RectKeys, values, [], 6);
  }

  const CircleKeys: seq<string> := ["cx", "cy", "r", "stroke", "fill", "opacity"]

  lemma CircleKeysDistinct()
    ensures Distinct(CircleKeys)
  {
    assert DistinctBelow(CircleKeys, 1);
    assert DistinctBelow(CircleKeys, 2);
    assert DistinctBelow(CircleKeys, 3);
    assert DistinctBelow(CircleKeys, 4);
    assert DistinctBelow(CircleKeys, 5);
    DistinctNames(CircleKeys, |CircleKeys|);
  }

  function CircleNode(center: Coord, radius: u32, s: ShapeStyle, fill: bool): Node {
    CircleKeysDistinct();
    Svg("circle", CircleKeys,
        [Decimal(center.x), Decimal(center.y), Decimal(radius),
         Paint(fill, s.color).1, Paint(fill, s.color).0, s.color.alpha.shown], [])
  }

  /** `draw_circle`: always one `circle`, whatever the opacity. */
  function DrawCircle(children: seq<Node>, center: Coord, radius: u32, s: ShapeStyle, fill: bool): (r: Result<seq<Node>, DrawError>)
    ensures r.Ok? && |r.value| == |children| + 1 && r.value[..|children|] == children
  {
    Ok(children + [CircleNode(center, radius, s, fill)])
  }

  /** The circle sits at the centre with the given radius and paints like a rectangle. */
  lemma CircleAttributes(children: seq<Node>, center: Coord, radius: u32, s: ShapeStyle, fill: bool)
    ensures var n := DrawCircle(children, center, radius, s, fill).value[|children|];
      && n.Element? && n.tag.name == "circle" && n.tag.children == []
      && Keys(n.tag.attrs) == {"cx", "cy", "r", "stroke", "fill", "opacity"}
      && ReadsInt(n, "cx", center.x) && ReadsInt(n, "cy", center.y) && ReadsInt(n, "r", radius)
      && AttrOf(n, "opacity") == Some(s.color.alpha.shown)
      && Painted(n, fill, s.color)
  {
    CircleKeysDistinct();
    var values := [Decimal(center.x), Decimal(center.y), Decimal(radius),
                   Paint(fill, s.color).1, Paint(fill, s.color).0, s.color.alpha.shown];
    assert DrawCircle(children, center, radius, s, fill).value[|children|] == Svg("circle", CircleKeys, values, []);
    SvgAttr("circle", CircleKeys, values, [], 0);
    SvgAttr("circle", CircleKeys, values, [], 1);
    SvgAttr("circle", CircleKeys, values, [], 2);
    SvgAttr("circle", CircleKeys, values, [], 3);
    SvgAttr("circle", CircleKeys, values, [], 4);
    SvgAttr("circle", CircleKeys, values, [], 5);
    SvgShape("circle", CircleKeys, values, []);
    DecimalRoundTrip(center.x);
    DecimalRoundTrip(center.y);
    DecimalRoundTrip(radius);
  }

  /** Exactly one of fill and stroke is `none`, for rectangles and circles alike. */
  lemma PaintExclusive(n: Node, fill: bool, c: RGBAColor)
    requires Painted(n, fill, c)
    ensures (AttrOf(n, "fill") == Some("none")) != (AttrOf(n, "stroke") == Some("none"))
  {
    ColorIsNotNone(c);
    assert ParseSvgColor("none") == None;
  }

  // ---------------------------------------------------------------------
  // draw_path
  // ---------------------------------------------------------------------

  /** The `d` attribute: a move to the first point, then a line to each further point. */
  function PathData(points: seq<Coord>): string
    requires points != []
  {
    "M" + PointText(points[0]) + " " + Join(Tokens("L", points[1..]), ' ')
  }

  /** Reads a `d` attribute of the shape `PathData` writes back into its points. */
  function ParsePathData(d: string): Option<seq<Coord>> {
    if |d| == 0 || d[0] != 'M' then None
    else
      var parts := Split(d[1..], ' ');
      if |parts| < 2 then None
      else
        match ParsePoint(parts[0])
        case None => None
        case Some(p0) =>
          if parts[1..] == [""] then Some([p0])
          else
            match ParsePoints(parts[1..], "L")
            case None => None
            case Some(ps) => Some([p0] + ps)
  }

  /** The path data names every point, in order, and nothing else. */
  lemma PathDataRoundTrip(points: seq<Coord>)
    requires points != []
    ensures ParsePathData(PathData(points)) == Some(points)
  {
    var p0 := points[0];
    var rest := points[1..];
    var d := PathData(points);
    PathDataSplit(points);
    var parts := Split(d[1..], ' ');
    assert parts[0] == PointText(p0);
    assert parts[1..] == Split(Join(Tokens("L", rest), ' '), ' ');
    assert |parts| >= 2;
    PointRoundTrip(p0);
    PathRestRoundTrip(rest);
    if rest == [] {
      assert points == [p0];
      assert ParsePathData(d) == Some([p0]);
    } else {
      assert points == [p0] + rest;
      assert ParsePathData(d) == Some([p0] + rest);
    }
  }

  /** After the `M`, the first piece is the start point and the others are the `L` tokens. */
  lemma PathDataSplit(points: seq<Coord>)
    requires points != []
    ensures |PathData(points)| > 0 && PathData(points)[0] == 'M'
    ensures Split(PathData(points)[1..], ' ') == [PointText(points[0])] + Split(Join(Tokens("L", points[1..]), ' '), ' ')
  {
    var joined := Join(Tokens("L", points[1..]), ' ');
    assert PathData(points)[1..] == PointText(points[0]) + [' '] + joined;
    PointTextFree(points[0], ' ');
    SplitAfterFree(PointText(points[0]), ' ', joined);
  }

  /** The `L` tokens split back apart and read back as the remaining points. */
  lemma PathRestRoundTrip(rest: seq<Coord>)
    ensures rest == [] ==> Split(Join(Tokens("L", rest), ' '), ' ') == [""]
    ensures rest != [] ==>
      && Split(Join(Tokens("L", rest), ' '), ' ') != [""]
      && ParsePoints(Split(Join(Tokens("L", rest), ' '), ' '), "L") == Some(rest)
  {
    if rest == [] {
      assert Join(Tokens("L", rest), ' ') == "";
    } else {
      TokensFree("L", rest, ' ');
      SplitJoin(Tokens("L", rest), ' ');
      assert Tokens("L", rest)[0][0] == 'L';
      ParsePointsRoundTrip("L", rest);
    }
  }

  const PathKeys: seq<string> := ["d", "fill", "opacity", "stroke", "stroke-width"]

  lemma PathKeysDistinct()
    ensures Distinct(PathKeys)
  {
    assert DistinctBelow(PathKeys, 1);
    assert DistinctBelow(PathKeys, 2);
    assert DistinctBelow(PathKeys, 3);
    assert DistinctBelow(PathKeys, 4);
    DistinctNames(PathKeys, |PathKeys|);
  }

  function PathValues(points: seq<Coord>, s: ShapeStyle): seq<string>
    requires points != []
  {
    [PathData(points), "none", s.color.alpha.shown, ColorText(s.color), Decimal(s.strokeWidth)]
  }

  /**
   * `draw_path`: nothing for a fully transparent style, which is checked
   * first; otherwise `NotEnoughPoints` for an empty path, else one `path`.
   */
  function DrawPath(children: seq<Node>, points: seq<Coord>, s: ShapeStyle): (r: Result<seq<Node>, DrawError>)
    ensures s.color.alpha.isZero ==> r == Ok(children)
    ensures !s.color.alpha.isZero && points == [] ==> r == Err(NotEnoughPoints)
    ensures !s.color.alpha.isZero && points != [] ==>
      r.Ok? && |r.value| == |children| + 1 && r.value[..|children|] == children
  {
    if s.color.alpha.isZero then Ok(children)
    else if points == [] then Err(NotEnoughPoints)
    else Ok(children + [PathNode(points, s)])
  }

  function PathNode(points: seq<Coord>, s: ShapeStyle): Node
    requires points != []
  {
    PathKeysDistinct();
    Svg("path", PathKeys, PathValues(points, s), [])
  }

  /** The appended `path` traces the points in order, unfilled, stroked in the style. */
  lemma PathAttributes(children: seq<Node>, points: seq<Coord>, s: ShapeStyle)
    requires !s.color.alpha.isZero && points != []
    ensures var n := DrawPath(children, points, s).value[|children|];
      && n.Element? && n.tag.name == "path" && n.tag.children == []
      && Keys(n.tag.attrs) == {"d", "fill", "opacity", "stroke", "stroke-width"}
      && AttrOf(n, "d").Some? && ParsePathData(AttrOf(n, "d").value) == Some(points)
      && AttrOf(n, "fill") == Some("none")
      && AttrOf(n, "opacity") == Some(s.color.alpha.shown)
      && ReadsColor(n, "stroke", s.color)
      && ReadsInt(n, "stroke-width", s.strokeWidth)
  {
    var values := PathValues(points, s);
    PathKeysDistinct();
    assert DrawPath(children, points, s).value[|children|] == Svg("path", PathKeys, values, []);
    SvgAttr("path", PathKeys, values, [], 0);
    SvgAttr("path", PathKeys, values, [], 1);
    SvgAttr("path", PathKeys, values, [], 2);
    SvgAttr("path", PathKeys, values, [], 3);
    SvgInt("path", PathKeys, values, [], 4, s.strokeWidth);
    SvgShape("path", PathKeys, values, []);
    PathDataRoundTrip(points);
  }

  // ---------------------------------------------------------------------
  // fill_polygon
  // ---------------------------------------------------------------------

  /** The `points` attribute: each vertex as `x,y`, separated by single spaces. */
  function PolygonPoints(vertices: seq<Coord>): string {
    Join(Tokens("", vertices), ' ')
  }

  function ParsePolygonPoints(t: string): Option<seq<Coord>> {
    if t == "" then Some([]) else ParsePoints(Split(t, ' '), "")
  }

  /** The point list names every vertex, in order, and nothing else. */
  lemma PolygonPointsRoundTrip(vertices: seq<Coord>)
    ensures ParsePolygonPoints(PolygonPoints(vertices)) == Some(vertices)
  {
    ParsePointsRoundTrip("", vertices);
    if vertices != [] {
      var ts := Tokens("", vertices);
      TokensFree("", vertices, ' ');
      SplitJoin(ts, ' ');
      assert |ts[0]| > 0 by {
        assert ts[0] == "" + PointText(vertices[0]);
      }
      assert Split(PolygonPoints(vertices), ' ')[0] != "";
    }
  }

  const PolygonKeys: seq<string> := ["points", "opacity", "fill"]

  lemma PolygonKeysDistinct()
    ensures Distinct(PolygonKeys)
  {
    assert DistinctBelow(PolygonKeys, 1);
    assert DistinctBelow(PolygonKeys, 2);
    DistinctNames(PolygonKeys, |PolygonKeys|);
  }

  /** `fill_polygon`: always one filled `polygon`, even with no vertices or no opacity. */
  function FillPolygon(children: seq<Node>, vertices: seq<Coord>, s: ShapeStyle): (r: Result<seq<Node>, DrawError>)
    ensures r.Ok? && |r.value| == |children| + 1 && r.value[..|children|] == children
  {
    Ok(children + [PolygonNode(vertices, s)])
  }

  function PolygonNode(vertices: seq<Coord>, s: ShapeStyle): Node {
    PolygonKeysDistinct();
    Svg("polygon", PolygonKeys, [PolygonPoints(vertices), s.color.alpha.shown, ColorText(s.color)], [])
  }

  lemma PolygonAttributes(children: seq<Node>, vertices: seq<Coord>, s: ShapeStyle)
    ensures var n := FillPolygon(children, vertices, s).value[|children|];
      && n.Element? && n.tag.name == "polygon" && n.tag.children == []
      && Keys(n.tag.attrs) == {"points", "opacity", "fill"}
      && AttrOf(n, "points").Some? && ParsePolygonPoints(AttrOf(n, "points").value) == Some(vertices)
      && AttrOf(n, "opacity") == Some(s.color.alpha.shown)
      && ReadsColor(n, "fill", s.color)
      && AttrOf(n, "stroke") == None
  {
    var values := [PolygonPoints(vertices), s.color.alpha.shown, ColorText(s.color)];
    PolygonKeysDistinct();
    assert FillPolygon(children, vertices, s).value[|children|] == Svg("polygon", PolygonKeys, values, []);
    SvgAttr("polygon", PolygonKeys, values, [], 0);
    SvgAttr("polygon", PolygonKeys, values, [], 1);
    SvgAttr("polygon", PolygonKeys, values, [], 2);
    SvgNoAttr("polygon", PolygonKeys, values, [], "stroke");
    SvgShape("polygon", PolygonKeys, values, []);
    PolygonPointsRoundTrip(vertices);
  }

  // ---------------------------------------------------------------------
  // draw_text
  // ---------------------------------------------------------------------

  /** `text-anchor` for the horizontal position. */
  function Anchor(h: HPos): string {
    match h
    case Left => "start"
    case Right => "end"
    case HCenter => "middle"
  }

  function AnchorPos(a: string): Option<HPos> {
    if a == "start" then Some(Left)
    else if a == "end" then Some(Right)
    else if a == "middle" then Some(HCenter)
    else None
  }

  /** `dy` for the vertical position: a baseline shift in font-relative units. */
  function Baseline(v: VPos): string {
    match v
    case Top => "0.76em"
    case VCenter => "0.5ex"
    case Bottom => "-0.5ex"
  }

  function BaselinePos(dy: string): Option<VPos> {
    if dy == "0.76em" then Some(Top)
    else if dy == "0.5ex" then Some(VCenter)
    else if dy == "-0.5ex" then Some(Bottom)
    else None
  }

  /**
   * `FontStyle::as_str`: "normal", "oblique", "italic" and "bold" for the
   * four styles.
   */
  function StyleName(st: FontStyle): string {
    match st
    case Normal => "normal"
    case Oblique => "oblique"
    case Italic => "italic"
    case Bold => "bold"
  }

  /** Bold is carried by `font-weight`; `font-style` then says `normal`. */
  function FontWeight(st: FontStyle): string {
    if st == Bold then "bold" else "normal"
  }

  function FontStyleAttr(st: FontStyle): string {
    if st == Bold then "normal" else StyleName(st)
  }

  /** Recovers the font style from the `font-weight` and `font-style` pair. */
  function ParseFontStyle(weight: string, style: string): FontStyle {
    if weight == "bold" then Bold
    else if style == "oblique" then Oblique
    else if style == "italic" then Italic
    else Normal
  }

  /** The rotation angle in degrees, if any. */
  function Degrees(tr: FontTransform): Option<int> {
    match tr
    case NoRotation => None
    case Rotate90 => Some(90)
    case Rotate180 => Some(180)
    case Rotate270 => Some(270)
  }

  /** `transform`: a rotation about the text's anchor point, or nothing. */
  function Rotation(tr: FontTransform, pos: Coord): string {
    match Degrees(tr)
    case None => ""
    case Some(d) => "rotate(" + Decimal(d) + ", " + Decimal(pos.x) + ", " + Decimal(pos.y) + ")"
  }

  /** Reads `rotate(d, x, y)` back into the angle and the centre. */
  function ParseRotation(t: string): Option<(int, Coord)> {
    if |t| < 8 || t[..7] != "rotate(" || t[|t| - 1] != ')' then None
    else
      var parts := Split(t[7..|t| - 1], ',');
      if |parts| != 3 || |parts[1]| == 0 || parts[1][0] != ' ' || |parts[2]| == 0 || parts[2][0] != ' ' then None
      else
        match (ParseDecimal(parts[0]), ParseDecimal(parts[1][1..]), ParseDecimal(parts[2][1..]))
        case (Some(d), Some(x), Some(y)) => if InI32(x) && InI32(y) then Some((d, Coord(x, y))) else None
        case _ => None
  }

  /** A rotation reads back as its angle and the anchor point; no rotation writes nothing. */
  lemma RotationRoundTrip(tr: FontTransform, pos: Coord)
    ensures Degrees(tr).None? ==> Rotation(tr, pos) == ""
    ensures Degrees(tr).Some? ==> ParseRotation(Rotation(tr, pos)) == Some((Degrees(tr).value, pos))
  {
    if Degrees(tr).Some? {
      var d := Degrees(tr).value;
      var inner := Decimal(d) + ", " + Decimal(pos.x) + ", " + Decimal(pos.y);
      assert Rotation(tr, pos) == "rotate(" + inner + ")";
      RotateCall(d, pos);
    }
  }

  /** `rotate(d, x, y)` reads back as the angle and the centre. */
  lemma RotateCall(d: int, pos: Coord)
    ensures ParseRotation("rotate(" + (Decimal(d) + ", " + Decimal(pos.x) + ", " + Decimal(pos.y)) + ")") == Some((d, pos))
  {
    var inner := Decimal(d) + ", " + Decimal(pos.x) + ", " + Decimal(pos.y);
    var t := "rotate(" + inner + ")";
    Parenthesised(inner);
    var parts := RotationPieces(d, pos);
    assert parts[1][1..] == Decimal(pos.x) && parts[2][1..] == Decimal(pos.y);
    DecimalRoundTrip(d);
    DecimalRoundTrip(pos.x);
    DecimalRoundTrip(pos.y);
    ParseRotationOf(t, parts, d, pos);
  }

  /** The call's arguments are the text between `rotate(` and the closing parenthesis. */
  lemma Parenthesised(inner: string)
    ensures var t := "rotate(" + inner + ")";
      |t| >= 8 && t[..7] == "rotate(" && t[|t| - 1] == ')' && t[7..|t| - 1] == inner
  {
    var t := "rotate(" + inner + ")";
    assert t[..7] == "rotate(";
    assert t[7..|t| - 1] == inner;
  }

  /** `ParseRotation` on a call whose three arguments read as numbers. */
  lemma ParseRotationOf(t: string, parts: seq<string>, d: int, pos: Coord)
    requires |t| >= 8 && t[..7] == "rotate(" && t[|t| - 1] == ')' && Split(t[7..|t| - 1], ',') == parts
    requires |parts| == 3 && |parts[1]| > 0 && parts[1][0] == ' ' && |parts[2]| > 0 && parts[2][0] == ' '
    requires ParseDecimal(parts[0]) == Some(d)
    requires ParseDecimal(parts[1][1..]) == Some(pos.x) && ParseDecimal(parts[2][1..]) == Some(pos.y)
    ensures ParseRotation(t) == Some((d, pos))
  {
  }

  /** The text between the parentheses splits at the commas into the angle and the two padded coordinates. */
  lemma RotationPieces(d: int, pos: Coord) returns (parts: seq<string>)
    ensures parts == [Decimal(d), " " + Decimal(pos.x), " " + Decimal(pos.y)]
    ensures Split(Decimal(d) + ", " + Decimal(pos.x) + ", " + Decimal(pos.y), ',') == parts
  {
    parts := [Decimal(d), " " + Decimal(pos.x), " " + Decimal(pos.y)];
    assert Join(parts[2..], ',') == parts[2];
    assert Join(parts[1..], ',') == parts[1] + [','] + parts[2];
    assert Join(parts, ',') == Decimal(d) + ", " + Decimal(pos.x) + ", " + Decimal(pos.y);
    DecimalFree(d, ',');
    DecimalFree(pos.x, ',');
    DecimalFree(pos.y, ',');
    assert forall i :: 0 <= i < |parts| ==> Free(parts[i], ',');
    SplitJoin(parts, ',');
  }

  const TextKeys: seq<string> := ["x", "y", "dy", "text-anchor", "font-family", "font-size",
                                  "opacity", "fill", "font-weight", "font-style", "transform"]

  lemma TextKeysDistinct()
    ensures Distinct(TextKeys)
  {
    TextKeysDistinctBelow9();
    assert DistinctBelow(TextKeys, 10);
    assert DistinctBelow(TextKeys, 11);
    DistinctNames(TextKeys, |TextKeys|);
  }

  lemma TextKeysDistinctBelow9()
    ensures DistinctBelow(TextKeys, 9)
  {
    TextKeysDistinctBelow7();
    assert DistinctBelow(TextKeys, 8);
  }

  lemma TextKeysDistinctBelow7()
    ensures DistinctBelow(TextKeys, 7)
  {
    TextKeysDistinctBelow5();
    assert DistinctBelow(TextKeys, 6);
  }

  lemma TextKeysDistinctBelow5()
    ensures DistinctBelow(TextKeys, 5)
  {
    TextKeysDistinctBelow3();
    assert DistinctBelow(TextKeys, 4);
  }

  lemma TextKeysDistinctBelow3()
    ensures DistinctBelow(TextKeys, 3)
  {
    assert DistinctBelow(TextKeys, 1);
    assert DistinctBelow(TextKeys, 2);
  }

  function TextValues(st: TextStyle, pos: Coord): seq<string> {
    [Decimal(pos.x), Decimal(pos.y), Baseline(st.vPos), Anchor(st.hPos), st.family, st.size,
     st.color.alpha.shown, ColorText(st.color), FontWeight(st.style), FontStyleAttr(st.style),
     Rotation(st.transform, pos)]
  }

  function TextElement(text: string, st: TextStyle, pos: Coord): Node {
    TextKeysDistinct();
    Svg("text", TextKeys, TextValues(st, pos), [TextNode(text)])
  }

  /** `draw_text`: one `text` element holding the string, or nothing for a fully transparent colour. */
  function DrawText(children: seq<Node>, text: string, st: TextStyle, pos: Coord): (r: Result<seq<Node>, DrawError>)
    ensures r.Ok?
    ensures st.color.alpha.isZero ==> r.value == children
    ensures !st.color.alpha.isZero ==> |r.value| == |children| + 1 && r.value[..|children|] == children
  {
    if st.color.alpha.isZero then Ok(children) else Ok(children + [TextElement(text, st, pos)])
  }

  /** The text sits at the point, holds the string, and its anchoring attributes name the position. */
  lemma TextPlacement(children: seq<Node>, text: string, st: TextStyle, pos: Coord)
    requires !st.color.alpha.isZero
    ensures var n := DrawText(children, text, st, pos).value[|children|];
      && n.Element? && n.tag.name == "text" && n.tag.children == [TextNode(text)]
      && Keys(n.tag.attrs) == {"x", "y", "dy", "text-anchor", "font-family", "font-size",
                               "opacity", "fill", "font-weight", "font-style", "transform"}
      && ReadsInt(n, "x", pos.x) && ReadsInt(n, "y", pos.y)
  {
    assert DrawText(children, text, st, pos).value[|children|] == TextElement(text, st, pos);
    TextKeysDistinct();
    var values := TextValues(st, pos);
    SvgInt("text", TextKeys, values, [TextNode(text)], 0, pos.x);
    SvgInt("text", TextKeys, values, [TextNode(text)], 1, pos.y);
    TextShape(text, st, pos);
  }

  lemma TextShape(text: string, st: TextStyle, pos: Coord)
    ensures var n := TextElement(text, st, pos);
      && n.Element? && n.tag.name == "text" && n.tag.children == [TextNode(text)]
      && Keys(n.tag.attrs) == {"x", "y", "dy", "text-anchor", "font-family", "font-size",
                               "opacity", "fill", "font-weight", "font-style", "transform"}
  {
    TextKeysDistinct();
    SvgShape("text", TextKeys, TextValues(st, pos), [TextNode(text)]);
  }

  /** The anchoring attributes name the horizontal and vertical position of the style. */
  lemma TextAnchoring(children: seq<Node>, text: string, st: TextStyle, pos: Coord)
    requires !st.color.alpha.isZero
    ensures var n := DrawText(children, text, st, pos).value[|children|];
      && AttrOf(n, "text-anchor").Some? && AnchorPos(AttrOf(n, "text-anchor").value) == Some(st.hPos)
      && AttrOf(n, "dy").Some? && BaselinePos(AttrOf(n, "dy").value) == Some(st.vPos)
  {
    assert DrawText(children, text, st, pos).value[|children|] == TextElement(text, st, pos);
    TextKeysDistinct();
    var values := TextValues(st, pos);
    SvgAttr("text", TextKeys, values, [TextNode(text)], 2);
    SvgAttr("text", TextKeys, values, [TextNode(text)], 3);
    AnchorRoundTrip(st.hPos);
    BaselineRoundTrip(st.vPos);
  }

  lemma AnchorRoundTrip(h: HPos)
    ensures AnchorPos(Anchor(h)) == Some(h)
  {
  }

  lemma BaselineRoundTrip(v: VPos)
    ensures BaselinePos(Baseline(v)) == Some(v)
  {
  }

  /**
   * The font attributes: family, size, colour and opacity as given; weight
   * `bold` and style `normal` for a bold font, otherwise weight `normal` and
   * the style's own name; and the weight and style together name the font
   * style.
   */
  lemma TextFont(children: seq<Node>, text: string, st: TextStyle, pos: Coord)
    requires !st.color.alpha.isZero
    ensures var n := DrawText(children, text, st, pos).value[|children|];
      && AttrOf(n, "font-family") == Some(st.family)
      && AttrOf(n, "font-size") == Some(st.size)
      && AttrOf(n, "opacity") == Some(st.color.alpha.shown)
      && ReadsColor(n, "fill", st.color)
      && (st.style == Bold ==>
            AttrOf(n, "font-weight") == Some("bold") && AttrOf(n, "font-style") == Some("normal"))
      && (st.style != Bold ==>
            AttrOf(n, "font-weight") == Some("normal") && AttrOf(n, "font-style") == Some(StyleName(st.style)))
      && AttrOf(n, "font-weight").Some? && AttrOf(n, "font-style").Some?
      && ParseFontStyle(AttrOf(n, "font-weight").value, AttrOf(n, "font-style").value) == st.style
  {
    TextKeysDistinct();
    var values := TextValues(st, pos);
    assert DrawText(children, text, st, pos).value[|children|] == Svg("text", TextKeys, values, [TextNode(text)]);
    SvgAttr("text", TextKeys, values, [TextNode(text)], 4);
    SvgAttr("text", TextKeys, values, [TextNode(text)], 5);
    SvgAttr("text", TextKeys, values, [TextNode(text)], 6);
    SvgAttr("text", TextKeys, values, [TextNode(text)], 7);
    SvgAttr("text", TextKeys, values, [TextNode(text)], 8);
    SvgAttr("text", TextKeys, values, [TextNode(text)], 9);
  }

  /** A rotated text turns about its own anchor point; an unrotated one has an empty transform. */
  lemma TextRotation(children: seq<Node>, text: string, st: TextStyle, pos: Coord)
    requires !st.color.alpha.isZero
    ensures var n := DrawText(children, text, st, pos).value[|children|];
      && AttrOf(n, "transform").Some?
      && (Degrees(st.transform).None? ==> AttrOf(n, "transform") == Some(""))
      && (Degrees(st.transform).Some? ==>
            ParseRotation(AttrOf(n, "transform").value) == Some((Degrees(st.transform).value, pos)))
  {
    TextKeysDistinct();
    var values := TextValues(st, pos);
    assert DrawText(children, text, st, pos).value[|children|] == Svg("text", TextKeys, values, [TextNode(text)]);
    SvgAttr("text", TextKeys, values, [TextNode(text)], 10);
    RotationRoundTrip(st.transform, pos);
  }

  // ---------------------------------------------------------------------
  // blit_bitmap
  // ---------------------------------------------------------------------

  const DataUrlPrefix: string := "data:image/png;base64,"

  const ImageKeys: seq<string> := ["x", "y", "href"]

  lemma ImageKeysDistinct()
    ensures Distinct(ImageKeys)
  {
    assert DistinctBelow(ImageKeys, 1);
    assert DistinctBelow(ImageKeys, 2);
    DistinctNames(ImageKeys, |ImageKeys|);
  }

  /**
   * `blit_bitmap`: an encoder failure is reported as `PngError` and adds
   * nothing; otherwise one `image` whose `href` is a PNG data URL.
   */
  function BlitBitmap(children: seq<Node>, pos: Coord, encoding: PngEncoding): (r: Result<seq<Node>, DrawError>)
    ensures r.Err? <==> encoding.EncodingFailed?
    ensures r.Err? ==> r.error == PngError
    ensures r.Ok? ==> |r.value| == |children| + 1 && r.value[..|children|] == children
  {
    match encoding
    case EncodingFailed => Err(PngError)
    case Encoded(data) =>
      Ok(children + [ImageNode(pos, data)])
  }

  /** An `image` at the point whose `href` is a PNG data URL carrying the payload. */
  function ImageNode(pos: Coord, data: string): Node {
    ImageKeysDistinct();
    Svg("image", ImageKeys, [Decimal(pos.x), Decimal(pos.y), DataUrlPrefix + data], [])
  }

  /** The image sits at the point, and its `href` is the PNG data-URL prefix followed by the payload. */
  lemma BitmapAttributes(children: seq<Node>, pos: Coord, data: string)
    ensures var n := BlitBitmap(children, pos, Encoded(data)).value[|children|];
      && n.Element? && n.tag.name == "image" && n.tag.children == []
      && Keys(n.tag.attrs) == {"x", "y", "href"}
      && ReadsInt(n, "x", pos.x) && ReadsInt(n, "y", pos.y)
      && AttrOf(n, "href").Some?
      && |AttrOf(n, "href").value| == |DataUrlPrefix| + |data|
      && AttrOf(n, "href").value[..|DataUrlPrefix|] == DataUrlPrefix
      && AttrOf(n, "href").value[|DataUrlPrefix|..] == data
  {
    ImageKeysDistinct();
    var values := [Decimal(pos.x), Decimal(pos.y), DataUrlPrefix + data];
    assert BlitBitmap(children, pos, Encoded(data)).value[|children|] == Svg("image", ImageKeys, values, []);
    SvgInt("image", ImageKeys, values, [], 0, pos.x);
    SvgInt("image", ImageKeys, values, [], 1, pos.y);
    SvgAttr("image", ImageKeys, values, [], 2);
    SvgShape("image", ImageKeys, values, []);
  }

  // ---------------------------------------------------------------------
  // Primitives and drawing sequences
  // ---------------------------------------------------------------------

  /** One call plotters makes on the backend. */
  datatype Primitive =
    | Pixel(point: Coord, color: RGBAColor)
    | Line(from: Coord, to: Coord, style: ShapeStyle)
    | Rect(upperLeft: Coord, bottomRight: Coord, style: ShapeStyle, fill: bool)
    | Path(points: seq<Coord>, style: ShapeStyle)
    | Circle(center: Coord, radius: u32, style: ShapeStyle, fill: bool)
    | Polygon(vertices: seq<Coord>, style: ShapeStyle)
    | Text(text: string, textStyle: TextStyle, pos: Coord)
    | Bitmap(pos: Coord, encoding: PngEncoding)

  /** The primitives that draw nothing: a fully transparent pixel, path or text. */
  predicate Invisible(p: Primitive) {
    || (p.Pixel? && p.color.alpha.isZero)
    || (p.Path? && p.style.color.alpha.isZero)
    || (p.Text? && p.textStyle.color.alpha.isZero)
  }

  /** The primitives that fail: a visible path with no points, a bitmap the encoder rejects. */
  predicate Fails(p: Primitive) {
    || (p.Path? && !p.style.color.alpha.isZero && p.points == [])
    || (p.Bitmap? && p.encoding.EncodingFailed?)
  }

  /** One primitive on the backend; lines are drawn with both end points as given. */
  function Draw(children: seq<Node>, p: Primitive): (r: Result<seq<Node>, DrawError>)
    ensures r.Err? <==> Fails(p)
    ensures r.Err? ==> r.error != Unknown
    ensures r.Ok? ==> |children| <= |r.value| <= |children| + 1 && r.value[..|children|] == children
  {
    match p
    case Pixel(point, color) => DrawPixel(children, point, color)
    case Line(from, to, style) => DrawLineCorrected(children, from, to, style)
    case Rect(upperLeft, bottomRight, style, fill) => DrawRect(children, upperLeft, bottomRight, style, fill)
    case Path(points, style) => DrawPath(children, points, style)
    case Circle(center, radius, style, fill) => DrawCircle(children, center, radius, style, fill)
    case Polygon(vertices, style) => FillPolygon(children, vertices, style)
    case Text(text, textStyle, pos) => DrawText(children, text, textStyle, pos)
    case Bitmap(pos, encoding) => BlitBitmap(children, pos, encoding)
  }

  /** A primitive that draws adds exactly one element, except the invisible ones, which add none. */
  lemma DrawAddsUnlessInvisible(children: seq<Node>, p: Primitive)
    requires Draw(children, p).Ok?
    ensures |Draw(children, p).value| == |children| <==> Invisible(p)
    ensures !Invisible(p) ==> |Draw(children, p).value| == |children| + 1
  {
  }

  /** Puts `children` in front of a successful result. */
  function Behind(children: seq<Node>, r: Result<seq<Node>, DrawError>): Result<seq<Node>, DrawError> {
    match r
    case Ok(nodes) => Ok(children + nodes)
    case Err(e) => Err(e)
  }

  /** What a primitive adds does not depend on what was drawn before it. */
  lemma DrawIgnoresEarlierChildren(children: seq<Node>, p: Primitive)
    ensures Draw(children, p) == Behind(children, Draw([], p))
  {
    match p
    case Pixel(point, color) =>
      if color.alpha.isZero {
        assert children + [] == children;
      } else {
        AppendOne(children, PixelNode(point, color));
      }
    case Line(from, to, s) =>
      AppendOne(children, LineCorrectedNode(from, to, s));
    case Rect(upperLeft, bottomRight, style, fill) =>
      AppendOne(children, RectNode(upperLeft, bottomRight, style, fill));
    case Path(points, style) =>
      if style.color.alpha.isZero {
        assert children + [] == children;
      } else if points != [] {
        AppendOne(children, PathNode(points, style));
      }
    case Circle(center, radius, style, fill) =>
      AppendOne(children, CircleNode(center, radius, style, fill));
    case Polygon(vertices, s) =>
      AppendOne(children, PolygonNode(vertices, s));
    case Text(text, textStyle, pos) =>
      if textStyle.color.alpha.isZero {
        assert children + [] == children;
      } else {
        AppendOne(children, TextElement(text, textStyle, pos));
      }
    case Bitmap(pos, encoding) =>
      if encoding.Encoded? {
        AppendOne(children, ImageNode(pos, encoding.base64));
      }
  }

  lemma AppendOne(children: seq<Node>, n: Node)
    ensures Behind(children, Ok([] + [n])) == Ok(children + [n])
  {
    assert [] + [n] == [n];
  }

  /** A drawing sequence, stopping at the first primitive that fails (plotters' `?`). */
  function Replay(children: seq<Node>, prims: seq<Primitive>): (r: Result<seq<Node>, DrawError>)
    ensures r.Err? ==> r.error != Unknown
    ensures r.Ok? ==> |children| <= |r.value| <= |children| + |prims| && r.value[..|children|] == children
    decreases |prims|
  {
    if prims == [] then Ok(children)
    else
      match Draw(children, prims[0])
      case Err(e) => Err(e)
      case Ok(next) => Replay(next, prims[1..])
  }

  /** A sequence fails exactly when one of its primitives does. */
  lemma {:induction false} ReplayFailsIffSomeFails(children: seq<Node>, prims: seq<Primitive>)
    ensures Replay(children, prims).Err? <==> exists i :: 0 <= i < |prims| && Fails(prims[i])
    decreases |prims|
  {
    if prims != [] {
      if !Fails(prims[0]) {
        ReplayFailsIffSomeFails(Draw(children, prims[0]).value, prims[1..]);
        if exists i :: 0 <= i < |prims| && Fails(prims[i]) {
          var i :| 0 <= i < |prims| && Fails(prims[i]);
          assert prims[1..][i - 1] == prims[i];
        }
        if exists i :: 0 <= i < |prims[1..]| && Fails(prims[1..][i]) {
          var i :| 0 <= i < |prims[1..]| && Fails(prims[1..][i]);
          assert prims[i + 1] == prims[1..][i];
        }
      }
    }
  }

  /**
   * The backend only ever appends: replaying a sequence onto any child list
   * adds exactly what it adds to an empty one.
   */
  lemma {:induction false} ReplayIgnoresEarlierChildren(children: seq<Node>, prims: seq<Primitive>)
    ensures Replay(children, prims) == Behind(children, Replay([], prims))
    decreases |prims|
  {
    if prims == [] {
      assert children + [] == children;
    } else {
      match Draw([], prims[0])
      case Err(e) =>
        ReplayAfterFailure(children, e, prims);
      case Ok(nodes) =>
        ReplayAfterDraw(children, nodes, prims);
        ReplayIgnoresEarlierChildren(children + nodes, prims[1..]);
        ReplayIgnoresEarlierChildren(nodes, prims[1..]);
        BehindTwice(children, nodes, Replay([], prims[1..]));
    }
  }

  lemma BehindTwice(children: seq<Node>, nodes: seq<Node>, r: Result<seq<Node>, DrawError>)
    ensures Behind(children + nodes, r) == Behind(children, Behind(nodes, r))
  {
    if r.Ok? {
      assert children + nodes + r.value == children + (nodes + r.value);
    }
  }

  lemma ReplayAfterFailure(children: seq<Node>, e: DrawError, prims: seq<Primitive>)
    requires prims != [] && Draw([], prims[0]) == Err(e)
    ensures Replay(children, prims) == Err(e) && Replay([], prims) == Err(e)
  {
    DrawIgnoresEarlierChildren(children, prims[0]);
  }

  lemma ReplayAfterDraw(children: seq<Node>, nodes: seq<Node>, prims: seq<Primitive>)
    requires prims != [] && Draw([], prims[0]) == Ok(nodes)
    ensures Replay(children, prims) == Replay(children + nodes, prims[1..])
    ensures Replay([], prims) == Replay(nodes, prims[1..])
  {
    DrawIgnoresEarlierChildren(children, prims[0]);
  }
}

=== FILE: event_tree.dfy ===
/**
 * The event-stream tree builder of `ChartComponent::view`: a fold over the
 * parsed markup events that keeps a stack of open elements whose bottom
 * entry is a synthetic root. Start tags push, end tags pop and reparent
 * onto the new top, empty tags and text are appended to the top, and every
 * other event only produces a log line.
 */
module EventTree {
  import opened Results
  import opened VDom
  import AttrSort

  /**
   * One event of the parsed markup (`svg::parser::Event`). The name an end
   * tag carries is never compared with the element it closes. A tag's
   * attributes are listed in the order `attrs.iter()` walks the parser's
   * attribute map, which need not be their order in the document; the
   * model treats that order as arbitrary.
   */
  datatype Event =
    | StartTag(name: string, attrs: Attributes)
    | EndTag(name: string)
    | EmptyTag(name: string, attrs: Attributes)
    | Text(content: string)
    | ParseError(message: string)
    | Comment
    | Declaration
    | Instruction
  {
    /** Events that only produce a console diagnostic. */
    predicate IsDiagnostic() {
      ParseError? || Comment? || Declaration? || Instruction?
    }
  }

  /**
   * What tells the two builders apart: `chart.rs` sorts start-tag attributes
   * and attaches hover listeners when a callback was supplied; `lib.rs` does
   * neither.
   */
  datatype Config = Config(sortAttributes: bool, hoverEnabled: bool)

  /** The class that marks a hoverable scatter point. */
  const HoverClass: string := "scatter-point"

  /** The panics (`unwrap` or `expect` on an empty stack) that abort a render. */
  datatype Fatal =
    | EndWithoutOpenTag    // `stack.pop().unwrap()` with nothing on the stack
    | EndPoppedRoot        // `stack.last_mut().unwrap()` after the root itself was popped
    | NoParentForEmptyTag  // `expect("no parent for empty tag")`
    | NoParentForTextItem  // `expect("no parent for text item")`

  /**
   * The element a start tag opens: its attributes are copied (sorted by name
   * when configured) and a hover listener is attached when hovering is
   * enabled and the `class` attribute is the marker class.
   */
  function OpenTag(cfg: Config, name: string, attrs: Attributes): (t: Tag)
    ensures t.name == name && t.children == []
    ensures multiset(t.attrs) == multiset(attrs)
    ensures cfg.sortAttributes ==> AttrSort.SortedByKey(t.attrs)
    ensures !cfg.sortAttributes ==> t.attrs == attrs
    ensures t.hover <==> cfg.hoverEnabled && Lookup(t.attrs, "class") == Some(HoverClass)
  {
    var mouseable := Lookup(attrs, "class") == Some(HoverClass);
    var stored := CopyAttributes(if cfg.sortAttributes then AttrSort.SortByKey(attrs) else attrs);
    AttrSort.SortKeepsLookups(attrs, "class");
    Tag(name, stored, [], cfg.hoverEnabled && mouseable)
  }

  /** `add_attributes` on a fresh element, which stores the pairs in the order given. */
  function CopyAttributes(attrs: Attributes): (r: Attributes)
    ensures r == attrs
  {
    assert Keys([]) == {};
    AddAttributesKeepsOrder([], attrs);
    AddAttributes([], attrs)
  }

  /** The element an empty (self-closing) tag adds: attributes copied unsorted, no listener. */
  function EmptyElement(name: string, attrs: Attributes): (t: Tag)
    ensures t.name == name && t.attrs == attrs && t.children == [] && !t.hover
  {
    Tag(name, CopyAttributes(attrs), [], false)
  }

  /** The effect of one event on the stack of open elements; the top is the last entry. */
  function Step(cfg: Config, stack: seq<Tag>, ev: Event): (r: Result<seq<Tag>, Fatal>)
    // a start tag pushes one new, still childless element named after the tag
    ensures ev.StartTag? ==>
      && r.Ok? && |r.value| == |stack| + 1 && r.value[..|stack|] == stack
      && r.value[|stack|].name == ev.name && r.value[|stack|].children == []
    // an end tag needs a parent below the top: the top becomes the parent's last child
    ensures ev.EndTag? && |stack| == 0 ==> r == Err(EndWithoutOpenTag)
    ensures ev.EndTag? && |stack| == 1 ==> r == Err(EndPoppedRoot)
    ensures ev.EndTag? && |stack| >= 2 ==>
      && r.Ok? && |r.value| == |stack| - 1
      && r.value[..|stack| - 2] == stack[..|stack| - 2]
      && r.value[|stack| - 2] == AddChild(stack[|stack| - 2], Element(stack[|stack| - 1]))
    // empty tags and text are appended to the top without changing the depth
    ensures (ev.EmptyTag? || ev.Text?) && |stack| == 0 ==> r.Err?
    ensures (ev.EmptyTag? || ev.Text?) && |stack| > 0 ==>
      && r.Ok? && |r.value| == |stack|
      && r.value[..|stack| - 1] == stack[..|stack| - 1]
      && r.value[|stack| - 1].name == stack[|stack| - 1].name
      && r.value[|stack| - 1].attrs == stack[|stack| - 1].attrs
      && r.value[|stack| - 1].hover == stack[|stack| - 1].hover
      && |r.value[|stack| - 1].children| == |stack[|stack| - 1].children| + 1
      && r.value[|stack| - 1].children[..|stack[|stack| - 1].children|] == stack[|stack| - 1].children
    ensures ev.EmptyTag? && |stack| > 0 ==>
      var added := r.value[|stack| - 1].children[|stack[|stack| - 1].children|];
      added.Element? && added.tag.name == ev.name && added.tag.attrs == ev.attrs
      && added.tag.children == [] && !added.tag.hover
    ensures ev.Text? && |stack| > 0 ==>
      r.value[|stack| - 1].children[|stack[|stack| - 1].children|] == TextNode(ev.content)
    // diagnostics leave the stack alone
    ensures ev.IsDiagnostic() ==> r == Ok(stack)
    // the bottom entry keeps its name, attributes and listener
    ensures |stack| > 0 && r.Ok? ==>
      |r.value| > 0 && r.value[0].name == stack[0].name && r.value[0].attrs == stack[0].attrs
      && r.value[0].hover == stack[0].hover
  {
    match ev
    case StartTag(name, attrs) =>
      Ok(stack + [OpenTag(cfg, name, attrs)])
    case EndTag(_) =>
      if |stack| == 0 then Err(EndWithoutOpenTag)
      else if |stack| == 1 then Err(EndPoppedRoot)
      else Ok(stack[..|stack| - 2] + [AddChild(stack[|stack| - 2], Element(stack[|stack| - 1]))])
    case EmptyTag(name, attrs) =>
      if |stack| == 0 then Err(NoParentForEmptyTag)
      else Ok(stack[..|stack| - 1] + [AddChild(stack[|stack| - 1], Element(EmptyElement(name, attrs)))])
    case Text(content) =>
      if |stack| == 0 then Err(NoParentForTextItem)
      else Ok(stack[..|stack| - 1] + [AddChild(stack[|stack| - 1], TextNode(content))])
    case _ =>
      Ok(stack)
  }

  /** The whole loop: every event in order, stopping at the first fatal one. */
  function Run(cfg: Config, stack: seq<Tag>, events: seq<Event>): (r: Result<seq<Tag>, Fatal>)
    ensures |stack| > 0 && r.Ok? ==>
      |r.value| > 0 && r.value[0].name == stack[0].name && r.value[0].attrs == stack[0].attrs
      && r.value[0].hover == stack[0].hover
    decreases |events|
  {
    if events == [] then Ok(stack)
    else
      match Step(cfg, stack, events[0])
      case Err(e) => Err(e)
      case Ok(next) => Run(cfg, next, events[1..])
  }

  // ---------------------------------------------------------------------
  // Depth accounting
  // ---------------------------------------------------------------------

  function Starts(events: seq<Event>): nat
    decreases |events|
  {
    if events == [] then 0 else (if events[0].StartTag? then 1 else 0) + Starts(events[1..])
  }

  function Ends(events: seq<Event>): nat
    decreases |events|
  {
    if events == [] then 0 else (if events[0].EndTag? then 1 else 0) + Ends(events[1..])
  }

  /** Elements opened minus elements closed. */
  function Depth(events: seq<Event>): int {
    Starts(events) - Ends(events)
  }

  /** How one event changes the number of open elements. */
  function Delta(ev: Event): int {
    if ev.StartTag? then 1 else if ev.EndTag? then -1 else 0
  }

  /** With `open` elements already open above the root, no prefix of the stream closes the root. */
  ghost predicate NeverUnderflows(events: seq<Event>, open: int) {
    forall k :: 0 <= k <= |events| ==> open + Depth(events[..k]) >= 0
  }

  /** Every start tag is closed and no end tag closes more than was opened. */
  ghost predicate Balanced(events: seq<Event>) {
    NeverUnderflows(events, 0) && Depth(events) == 0
  }

  lemma DepthCons(events: seq<Event>)
    requires events != []
    ensures Depth(events) == Delta(events[0]) + Depth(events[1..])
  {
  }

  lemma PrefixDepth(events: seq<Event>, k: nat)
    requires 1 <= k <= |events|
    ensures Depth(events[..k]) == Delta(events[0]) + Depth(events[1..][..k - 1])
  {
    assert events[..k][1..] == events[1..][..k - 1];
    DepthCons(events[..k]);
  }

  lemma NeverUnderflowsCons(events: seq<Event>, open: int)
    requires events != [] && open >= 0
    ensures NeverUnderflows(events, open) <==>
      open + Delta(events[0]) >= 0 && NeverUnderflows(events[1..], open + Delta(events[0]))
  {
    var d := Delta(events[0]);
    if NeverUnderflows(events, open) {
      PrefixDepth(events, 1);
      assert events[1..][..0] == [];
      assert open + Depth(events[..1]) >= 0;
      forall k | 0 <= k <= |events[1..]|
        ensures open + d + Depth(events[1..][..k]) >= 0
      {
        PrefixDepth(events, k + 1);
        assert open + Depth(events[..k + 1]) >= 0;
      }
    }
    if open + d >= 0 && NeverUnderflows(events[1..], open + d) {
      forall k | 0 <= k <= |events|
        ensures open + Depth(events[..k]) >= 0
      {
        if k > 0 {
          PrefixDepth(events, k);
          assert open + d + Depth(events[1..][..k - 1]) >= 0;
        } else {
          assert events[..0] == [];
        }
      }
    }
  }

  /**
   * Depth accounting: starting from a non-empty stack, the loop succeeds
   * exactly when no prefix of the stream pops the bottom entry, the stack
   * then ends `Depth(events)` entries deeper, and the only failure possible
   * is popping the root.
   */
  lemma {:induction false} RunAccounting(cfg: Config, stack: seq<Tag>, events: seq<Event>)
    requires |stack| > 0
    ensures Run(cfg, stack, events).Ok? <==> NeverUnderflows(events, |stack| - 1)
    ensures Run(cfg, stack, events).Ok? ==> |Run(cfg, stack, events).value| == |stack| + Depth(events)
    ensures Run(cfg, stack, events).Err? ==> Run(cfg, stack, events).error == EndPoppedRoot
    decreases |events|
  {
    if events == [] {
      assert events[..0] == [];
    } else {
      NeverUnderflowsCons(events, |stack| - 1);
      DepthCons(events);
      match Step(cfg, stack, events[0])
      case Err(e) =>
      case Ok(next) =>
        assert |next| == |stack| + Delta(events[0]);
        RunAccounting(cfg, next, events[1..]);
    }
  }

  /**
   * From a single root, the loop ends with exactly one entry on the stack if
   * and only if the stream is balanced.
   */
  lemma SingleRootIffBalanced(cfg: Config, root: Tag, events: seq<Event>)
    ensures (Run(cfg, [root], events).Ok? && |Run(cfg, [root], events).value| == 1) <==> Balanced(events)
  {
    RunAccounting(cfg, [root], events);
  }

  // ---------------------------------------------------------------------
  // A reference reading without a stack
  // ---------------------------------------------------------------------

  /**
   * Reads sibling nodes up to the first end tag that closes nothing read
   * here, or to the end of the stream. Returns the nodes, in stream order,
   * and the events from that end tag on; `None` when a start tag is never
   * closed. Each element holds exactly the nodes read between its start tag
   * and its end tag.
   */
  function Items(cfg: Config, events: seq<Event>): (r: Option<(seq<Node>, seq<Event>)>)
    ensures r.Some? ==> |r.value.1| <= |events|
    ensures r.Some? ==> r.value.1 == [] || r.value.1[0].EndTag?
    decreases |events|
  {
    if events == [] then Some(([], []))
    else
      match events[0]
      case EndTag(_) => Some(([], events))
      case StartTag(name, attrs) =>
        (match Items(cfg, events[1..])
         case None => None
         case Some((kids, rest)) =>
           if rest == [] then None
           else
             match Items(cfg, rest[1..])
             case None => None
             case Some((siblings, after)) =>
               Some(([Element(OpenTag(cfg, name, attrs).(children := kids))] + siblings, after)))
      case EmptyTag(name, attrs) => Prepend(Element(EmptyElement(name, attrs)), Items(cfg, events[1..]))
      case Text(content) => Prepend(TextNode(content), Items(cfg, events[1..]))
      case _ => Items(cfg, events[1..])
  }

  function Prepend(n: Node, r: Option<(seq<Node>, seq<Event>)>): Option<(seq<Node>, seq<Event>)> {
    match r
    case None => None
    case Some((nodes, rest)) => Some(([n] + nodes, rest))
  }

  /**
   * On a stream that closes exactly the `open` elements left open before it,
   * the reference reading succeeds; it stops at the end when nothing was
   * open, and otherwise at an end tag after which the rest closes the others.
   */
  lemma {:induction false} ItemsOfNested(cfg: Config, events: seq<Event>, open: nat)
    requires NeverUnderflows(events, open) && open + Depth(events) == 0
    ensures Items(cfg, events).Some?
    ensures open == 0 ==> Items(cfg, events).value.1 == []
    ensures open > 0 ==>
      var rest := Items(cfg, events).value.1;
      rest != [] && NeverUnderflows(rest[1..], open - 1) && open - 1 + Depth(rest[1..]) == 0
    decreases |events|
  {
    if events != [] {
      NeverUnderflowsCons(events, open);
      DepthCons(events);
      match events[0]
      case EndTag(_) =>
      case StartTag(name, attrs) =>
        ItemsOfNested(cfg, events[1..], open + 1);
        var rest := Items(cfg, events[1..]).value.1;
        ItemsOfNested(cfg, rest[1..], open);
      case EmptyTag(_, _) =>
        ItemsOfNested(cfg, events[1..], open);
      case Text(_) =>
        ItemsOfNested(cfg, events[1..], open);
      case ParseError(_) =>
        ItemsOfNested(cfg, events[1..], open);
      case Comment =>
        ItemsOfNested(cfg, events[1..], open);
      case Declaration =>
        ItemsOfNested(cfg, events[1..], open);
      case Instruction =>
        ItemsOfNested(cfg, events[1..], open);
    } else {
      assert events[..0] == [];
    }
  }

  lemma StepPush(cfg: Config, stack: seq<Tag>, ev: Event)
    requires ev.StartTag?
    ensures Step(cfg, stack, ev) == Ok(stack + [OpenTag(cfg, ev.name, ev.attrs)])
  {
  }

  lemma StepPop(cfg: Config, below: seq<Tag>, parent: Tag, child: Tag, ev: Event)
    requires ev.EndTag?
    ensures Step(cfg, below + [parent] + [child], ev) == Ok(below + [AddChild(parent, Element(child))])
  {
    var stack := below + [parent] + [child];
    assert stack[..|stack| - 2] == below;
  }

  lemma StepAppend(cfg: Config, below: seq<Tag>, top: Tag, ev: Event, child: Node)
    requires ev.EmptyTag? ==> child == Element(EmptyElement(ev.name, ev.attrs))
    requires ev.Text? ==> child == TextNode(ev.content)
    requires ev.EmptyTag? || ev.Text?
    ensures Step(cfg, below + [top], ev) == Ok(below + [AddChild(top, child)])
  {
    var stack := below + [top];
    assert stack[..|stack| - 1] == below;
  }

  lemma RunCons(cfg: Config, stack: seq<Tag>, events: seq<Event>, next: seq<Tag>)
    requires events != [] && Step(cfg, stack, events[0]) == Ok(next)
    ensures Run(cfg, stack, events) == Run(cfg, next, events[1..])
  {
  }

  /** Appending `nodes` after `child` is appending `[child] + nodes`. */
  lemma ChildrenAppend(top: Tag, child: Node, nodes: seq<Node>)
    ensures AddChild(top, child).(children := AddChild(top, child).children + nodes)
         == top.(children := top.children + ([child] + nodes))
  {
    assert top.children + [child] + nodes == top.children + ([child] + nodes);
  }

  /**
   * The stack loop agrees with the reference reading: consuming the events
   * the reference reads as `nodes` appends exactly `nodes`, in order, to the
   * children of the current top, leaving the entries below it untouched.
   */
  lemma {:induction false} RunFollowsItems(cfg: Config, below: seq<Tag>, top: Tag, events: seq<Event>)
    requires Items(cfg, events).Some?
    ensures Run(cfg, below + [top], events)
         == Run(cfg, below + [top.(children := top.children + Items(cfg, events).value.0)],
                Items(cfg, events).value.1)
    decreases |events|
  {
    var stack := below + [top];
    if events == [] || events[0].EndTag? {
      assert top.(children := top.children + []) == top;
    } else if events[0].StartTag? {
      var ev := events[0];
      var started := OpenTag(cfg, ev.name, ev.attrs);
      var (kids, rest) := Items(cfg, events[1..]).value;
      var (siblings, after) := Items(cfg, rest[1..]).value;
      var closed := started.(children := kids);
      StepPush(cfg, stack, ev);
      RunCons(cfg, stack, events, stack + [started]);
      RunFollowsItems(cfg, stack, started, events[1..]);
      assert started.(children := started.children + kids) == closed;
      StepPop(cfg, below, top, closed, rest[0]);
      RunCons(cfg, stack + [closed], rest, below + [AddChild(top, Element(closed))]);
      RunFollowsItems(cfg, below, AddChild(top, Element(closed)), rest[1..]);
      ChildrenAppend(top, Element(closed), siblings);
    } else if events[0].EmptyTag? || events[0].Text? {
      var ev := events[0];
      var child := if ev.EmptyTag? then Element(EmptyElement(ev.name, ev.attrs)) else TextNode(ev.content);
      StepAppend(cfg, below, top, ev, child);
      RunCons(cfg, stack, events, below + [AddChild(top, child)]);
      RunFollowsItems(cfg, below, AddChild(top, child), events[1..]);
      ChildrenAppend(top, child, Items(cfg, events[1..]).value.0);
    } else {
      RunCons(cfg, stack, events, stack);
      RunFollowsItems(cfg, below, top, events[1..]);
    }
  }

  /**
   * On a balanced stream the loop leaves just the root on the stack, now
   * holding every top-level node of the stream after its original children,
   * in stream order, each element nesting exactly what its tags enclose.
   */
  lemma BalancedBuildsItems(cfg: Config, root: Tag, events: seq<Event>)
    requires Balanced(events)
    ensures Items(cfg, events).Some? && Items(cfg, events).value.1 == []
    ensures Run(cfg, [root], events) == Ok([root.(children := root.children + Items(cfg, events).value.0)])
  {
    ItemsOfNested(cfg, events, 0);
    var below: seq<Tag> := [];
    var filled := root.(children := root.children + Items(cfg, events).value.0);
    RunFollowsItems(cfg, below, root, events);
    assert below + [root] == [root] && below + [filled] == [filled];
    assert Run(cfg, [filled], []) == Ok([filled]);
  }

  // ---------------------------------------------------------------------
  // Listeners
  // ---------------------------------------------------------------------

  /** Every listener in the element and below it sits on a marker-class element, and only when hovering is enabled. */
  predicate ListenersJustified(cfg: Config, t: Tag)
    decreases t
  {
    && (t.hover ==> cfg.hoverEnabled && Lookup(t.attrs, "class") == Some(HoverClass))
    && forall i :: 0 <= i < |t.children| ==> NodeListenersJustified(cfg, t.children[i])
  }

  predicate NodeListenersJustified(cfg: Config, n: Node)
    decreases n
  {
    n.TextNode? || ListenersJustified(cfg, n.tag)
  }

  predicate StackListenersJustified(cfg: Config, stack: seq<Tag>) {
    forall i :: 0 <= i < |stack| ==> ListenersJustified(cfg, stack[i])
  }

  lemma AddChildJustified(cfg: Config, t: Tag, child: Node)
    requires ListenersJustified(cfg, t) && NodeListenersJustified(cfg, child)
    ensures ListenersJustified(cfg, AddChild(t, child))
  {
    var r := AddChild(t, child);
    forall i | 0 <= i < |r.children|
      ensures NodeListenersJustified(cfg, r.children[i])
    {
      if i < |t.children| {
        assert r.children[i] == t.children[i];
      }
    }
  }

  /**
   * The listener rule holds of the whole tree: if every open element obeys it
   * before the events, every open element, with everything attached below
   * it, obeys it afterwards.
   */
  lemma {:induction false} RunKeepsListenersJustified(cfg: Config, stack: seq<Tag>, events: seq<Event>)
    requires StackListenersJustified(cfg, stack)
    ensures Run(cfg, stack, events).Ok? ==> StackListenersJustified(cfg, Run(cfg, stack, events).value)
    decreases |events|
  {
    if events != [] {
      var ev := events[0];
      match Step(cfg, stack, ev)
      case Err(_) =>
      case Ok(next) =>
        if ev.StartTag? {
          assert next == stack + [OpenTag(cfg, ev.name, ev.attrs)];
        } else if ev.EndTag? {
          var n := |stack|;
          AddChildJustified(cfg, stack[n - 2], Element(stack[n - 1]));
          assert next == stack[..n - 2] + [AddChild(stack[n - 2], Element(stack[n - 1]))];
        } else if ev.EmptyTag? || ev.Text? {
          var n := |stack|;
          var child := if ev.EmptyTag? then Element(EmptyElement(ev.name, ev.attrs)) else TextNode(ev.content);
          AddChildJustified(cfg, stack[n - 1], child);
          assert next == stack[..n - 1] + [AddChild(stack[n - 1], child)];
        }
        RunKeepsListenersJustified(cfg, next, events[1..]);
    }
  }

  // ---------------------------------------------------------------------
  // Diagnostics
  // ---------------------------------------------------------------------

  /** The stream with every diagnostic-only event removed. */
  function WithoutDiagnostics(events: seq<Event>): (r: seq<Event>)
    ensures forall i :: 0 <= i < |r| ==> !r[i].IsDiagnostic()
    ensures |r| <= |events|
    decreases |events|
  {
    if events == [] then []
    else if events[0].IsDiagnostic() then WithoutDiagnostics(events[1..])
    else [events[0]] + WithoutDiagnostics(events[1..])
  }

  /**
   * Parse errors, comments, declarations and instructions neither abort the
   * render nor show up in the tree: the loop gives the same outcome without them.
   */
  lemma {:induction false} DiagnosticsAreInert(cfg: Config, stack: seq<Tag>, events: seq<Event>)
    ensures Run(cfg, stack, events) == Run(cfg, stack, WithoutDiagnostics(events))
    decreases |events|
  {
    if events != [] {
      if events[0].IsDiagnostic() {
        DiagnosticsAreInert(cfg, stack, events[1..]);
      } else {
        var w := WithoutDiagnostics(events);
        assert w[0] == events[0] && w[1..] == WithoutDiagnostics(events[1..]);
        match Step(cfg, stack, events[0])
        case Err(_) =>
        case Ok(next) =>
          DiagnosticsAreInert(cfg, next, events[1..]);
      }
    }
  }
}

=== FILE: results.dfy ===
/** The optional values and outcomes shared by the rest of the model. */
module Results {

  /** The outcome of an operation that either produces a value or fails with an error. */
  datatype Result<+T, +E> = Ok(value: T) | Err(error: E)

  /** An optional value. */
  datatype Option<+T> = None | Some(value: T)
}

=== FILE: text_format.dfy ===
/**
 * The string formats the chart code writes into attribute values: Rust's
 * `Display` of integers, the `{:02X}` hexadecimal colour channels of
 * `make_svg_color`, `"x,y"` point pairs and space-joined lists of them.
 * Each format comes with a parser and a lemma showing the parser recovers
 * the formatted value, so no two inputs can be rendered to the same text.
 */
module TextFormat {
  import opened Results

  /** An unsigned 8-bit colour channel, as returned by `Color::rgb`. */
  type byte = x: int | 0 <= x < 0x100

  /** The range of a signed 32-bit integer. */
  predicate InI32(v: int) {
    -0x8000_0000 <= v < 0x8000_0000
  }

  /** A signed 32-bit integer; plotters' `BackendCoord` is a pair of them. */
  type i32 = x: int | InI32(x)

  /** A backend coordinate `(x, y)`. */
  datatype Coord = Coord(x: i32, y: i32)

  // ---------------------------------------------------------------------
  // Decimal integers
  // ---------------------------------------------------------------------

  predicate IsDigit(c: char) {
    '0' <= c <= '9'
  }

  predicate AllDigits(s: string) {
    forall i :: 0 <= i < |s| ==> IsDigit(s[i])
  }

  /** What Rust's integer `Display` writes for a magnitude: at least one digit, no leading zero. */
  predicate IsCanonicalDigits(s: string) {
    |s| > 0 && AllDigits(s) && (s[0] == '0' ==> |s| == 1)
  }

  function DigitValue(c: char): (d: nat)
    requires IsDigit(c)
    ensures d < 10
  {
    c as int - '0' as int
  }

  function DigitChar(d: nat): (c: char)
    requires d < 10
    ensures IsDigit(c) && DigitValue(c) == d
  {
    ('0' as int + d) as char
  }

  /** The decimal digits of `n`, most significant first. */
  function NatDigits(n: nat): (s: string)
    ensures IsCanonicalDigits(s)
    ensures s[0] == '0' <==> n == 0
    decreases n
  {
    if n < 10 then [DigitChar(n)] else NatDigits(n / 10) + [DigitChar(n % 10)]
  }

  /** The value of a string of decimal digits. */
  function DigitsValue(s: string): nat
    requires AllDigits(s)
    decreases |s|
  {
    if s == [] then 0 else 10 * DigitsValue(s[..|s| - 1]) + DigitValue(s[|s| - 1])
  }

  /** `format!("{}", i)` for an integer `i`. */
  function Decimal(i: int): (s: string)
    ensures |s| > 0
    ensures s[0] == '-' <==> i < 0
    ensures forall k :: 0 <= k < |s| ==> s[k] == '-' || IsDigit(s[k])
  {
    if i < 0 then "-" + NatDigits(-i) else NatDigits(i)
  }

  /** Reads back exactly the strings `Decimal` can produce. */
  function ParseDecimal(s: string): Option<int> {
    if |s| > 0 && s[0] == '-' then
      if IsCanonicalDigits(s[1..]) && s[1] != '0' then Some(0 - DigitsValue(s[1..]) as int) else None
    else if IsCanonicalDigits(s) then Some(DigitsValue(s))
    else None
  }

  lemma {:induction false} NatDigitsRoundTrip(n: nat)
    ensures DigitsValue(NatDigits(n)) == n
    decreases n
  {
    if n >= 10 {
      var s := NatDigits(n);
      assert s[..|s| - 1] == NatDigits(n / 10);
      NatDigitsRoundTrip(n / 10);
    }
  }

  lemma {:induction false} LeadingDigitPositive(s: string)
    requires IsCanonicalDigits(s) && s[0] != '0'
    ensures DigitsValue(s) >= 1
    decreases |s|
  {
    if |s| > 1 {
      LeadingDigitPositive(s[..|s| - 1]);
    }
  }

  lemma {:induction false} CanonicalDigitsRoundTrip(s: string)
    requires IsCanonicalDigits(s)
    ensures NatDigits(DigitsValue(s)) == s
    decreases |s|
  {
    if |s| > 1 {
      var p := s[..|s| - 1];
      var d := DigitValue(s[|s| - 1]);
      LeadingDigitPositive(p);
      CanonicalDigitsRoundTrip(p);
      var v := DigitsValue(s);
      assert v == 10 * DigitsValue(p) + d;
      assert v / 10 == DigitsValue(p) && v % 10 == d;
      assert DigitChar(d) == s[|s| - 1];
      assert s == p + [s[|s| - 1]];
    } else {
      assert s == [DigitChar(DigitValue(s[0]))];
    }
  }

  /** Parsing recovers every integer the formatter writes. */
  lemma DecimalRoundTrip(i: int)
    ensures ParseDecimal(Decimal(i)) == Some(i)
  {
    if i < 0 {
      var s := Decimal(i);
      assert s[1..] == NatDigits(-i);
      NatDigitsRoundTrip(-i);
    } else {
      NatDigitsRoundTrip(i);
    }
  }

  /** Conversely, a string the parser accepts is the formatter's own rendering of its value. */
  lemma DecimalParseCanonical(s: string, i: int)
    requires ParseDecimal(s) == Some(i)
    ensures Decimal(i) == s
  {
    if |s| > 0 && s[0] == '-' {
      LeadingDigitPositive(s[1..]);
      CanonicalDigitsRoundTrip(s[1..]);
      assert s == "-" + s[1..];
    } else {
      CanonicalDigitsRoundTrip(s);
    }
  }

  // ---------------------------------------------------------------------
  // Hexadecimal colours
  // ---------------------------------------------------------------------

  predicate IsUpperHex(c: char) {
    IsDigit(c) || 'A' <= c <= 'F'
  }

  function HexValue(c: char): (v: nat)
    requires IsUpperHex(c)
    ensures v < 16
  {
    if IsDigit(c) then DigitValue(c) else c as int - 'A' as int + 10
  }

  function HexDigit(d: nat): (c: char)
    requires d < 16
    ensures IsUpperHex(c) && HexValue(c) == d
  {
    if d < 10 then DigitChar(d) else ('A' as int + (d - 10)) as char
  }

  /** `format!("{:02X}", b)`: two upper-case hexadecimal digits, high nibble first. */
  function Hex2(b: byte): (s: string)
    ensures |s| == 2 && IsUpperHex(s[0]) && IsUpperHex(s[1])
    ensures 16 * HexValue(s[0]) + HexValue(s[1]) == b
  {
    [HexDigit(b / 16), HexDigit(b % 16)]
  }

  /** `make_svg_color`: `#` and the red, green and blue channels as `{:02X}`. */
  function SvgColor(r: byte, g: byte, b: byte): (s: string)
    ensures |s| == 7 && s[0] == '#'
    ensures forall i :: 1 <= i < 7 ==> IsUpperHex(s[i])
    ensures ParseSvgColor(s) == Some((r, g, b))
  {
    "#" + Hex2(r) + Hex2(g) + Hex2(b)
  }

  /** Reads a `#RRGGBB` string back into its three channels. */
  function ParseSvgColor(s: string): Option<(byte, byte, byte)> {
    if |s| == 7 && s[0] == '#' && forall i :: 1 <= i < 7 ==> IsUpperHex(s[i]) then
      Some((16 * HexValue(s[1]) + HexValue(s[2]),
            16 * HexValue(s[3]) + HexValue(s[4]),
            16 * HexValue(s[5]) + HexValue(s[6])))
    else
      None
  }

  // ---------------------------------------------------------------------
  // Joining and splitting
  // ---------------------------------------------------------------------

  /** `Vec<String>::join` with a one-character separator. */
  function Join(parts: seq<string>, sep: char): string {
    if |parts| == 0 then ""
    else if |parts| == 1 then parts[0]
    else parts[0] + [sep] + Join(parts[1..], sep)
  }

  /** Splits at every occurrence of `sep`, keeping empty pieces. */
  function Split(s: string, sep: char): (parts: seq<string>)
    ensures |parts| > 0
    decreases |s|
  {
    if s == [] then [""]
    else
      var rest := Split(s[1..], sep);
      if s[0] == sep then [""] + rest else [[s[0]] + rest[0]] + rest[1..]
  }

  /** `s` does not contain `sep`. */
  predicate Free(s: string, sep: char) {
    forall i :: 0 <= i < |s| ==> s[i] != sep
  }

  lemma {:induction false} SplitFree(s: string, sep: char)
    requires Free(s, sep)
    ensures Split(s, sep) == [s]
    decreases |s|
  {
    if s != [] {
      SplitFree(s[1..], sep);
      assert [s[0]] + s[1..] == s;
    }
  }

  lemma {:induction false} SplitAfterFree(a: string, sep: char, b: string)
    requires Free(a, sep)
    ensures Split(a + [sep] + b, sep) == [a] + Split(b, sep)
    decreases |a|
  {
    var s := a + [sep] + b;
    if a == [] {
      assert s[1..] == b;
    } else {
      assert s[1..] == a[1..] + [sep] + b;
      SplitAfterFree(a[1..], sep, b);
      assert [a[0]] + a[1..] == a;
    }
  }

  /** Splitting undoes joining when no piece contains the separator. */
  lemma {:induction false} SplitJoin(parts: seq<string>, sep: char)
    requires |parts| > 0
    requires forall i :: 0 <= i < |parts| ==> Free(parts[i], sep)
    ensures Split(Join(parts, sep), sep) == parts
    decreases |parts|
  {
    if |parts| == 1 {
      SplitFree(parts[0], sep);
    } else {
      SplitAfterFree(parts[0], sep, Join(parts[1..], sep));
      SplitJoin(parts[1..], sep);
      assert [parts[0]] + parts[1..] == parts;
    }
  }

  lemma DecimalFree(i: int, sep: char)
    requires sep != '-' && !IsDigit(sep)
    ensures Free(Decimal(i), sep)
  {
  }

  // ---------------------------------------------------------------------
  // Points and point lists
  // ---------------------------------------------------------------------

  /** `format!("{},{}", x, y)`. */
  function PointText(p: Coord): string {
    Decimal(p.x) + "," + Decimal(p.y)
  }

  function ParsePoint(t: string): Option<Coord> {
    var parts := Split(t, ',');
    if |parts| != 2 then None
    else
      match (ParseDecimal(parts[0]), ParseDecimal(parts[1]))
      case (Some(x), Some(y)) => if InI32(x) && InI32(y) then Some(Coord(x, y)) else None
      case _ => None
  }

  lemma PointRoundTrip(p: Coord)
    ensures ParsePoint(PointText(p)) == Some(p)
  {
    var parts := [Decimal(p.x), Decimal(p.y)];
    DecimalFree(p.x, ',');
    DecimalFree(p.y, ',');
    assert PointText(p) == Join(parts, ',');
    SplitJoin(parts, ',');
    DecimalRoundTrip(p.x);
    DecimalRoundTrip(p.y);
  }

  lemma PointTextFree(p: Coord, sep: char)
    requires sep != '-' && sep != ',' && !IsDigit(sep)
    ensures Free(PointText(p), sep)
  {
    DecimalFree(p.x, sep);
    DecimalFree(p.y, sep);
  }

  /** One token per point: `lead` followed by the point's `"x,y"` text. */
  function Tokens(lead: string, pts: seq<Coord>): (ts: seq<string>)
    ensures |ts| == |pts|
  {
    seq(|pts|, i requires 0 <= i < |pts| => lead + PointText(pts[i]))
  }

  /** Reads tokens that each start with `lead` and continue with a point. */
  function ParsePoints(ts: seq<string>, lead: string): Option<seq<Coord>>
    decreases |ts|
  {
    if ts == [] then Some([])
    else if |ts[0]| < |lead| || ts[0][..|lead|] != lead then None
    else
      match (ParsePoint(ts[0][|lead|..]), ParsePoints(ts[1..], lead))
      case (Some(p), Some(ps)) => Some([p] + ps)
      case _ => None
  }

  lemma TokenRoundTrip(lead: string, p: Coord)
    ensures |lead + PointText(p)| >= |lead|
    ensures (lead + PointText(p))[..|lead|] == lead
    ensures ParsePoint((lead + PointText(p))[|lead|..]) == Some(p)
  {
    assert (lead + PointText(p))[|lead|..] == PointText(p);
    PointRoundTrip(p);
  }

  lemma {:induction false} ParsePointsRoundTrip(lead: string, pts: seq<Coord>)
    ensures ParsePoints(Tokens(lead, pts), lead) == Some(pts)
    decreases |pts|
  {
    if pts != [] {
      var ts := Tokens(lead, pts);
      TokensCons(lead, pts);
      TokenRoundTrip(lead, pts[0]);
      ParsePointsRoundTrip(lead, pts[1..]);
      ParsePointsCons(ts, lead, pts[0], pts[1..]);
      assert [pts[0]] + pts[1..] == pts;
    }
  }

  lemma ParsePointsCons(ts: seq<string>, lead: string, p: Coord, ps: seq<Coord>)
    requires ts != [] && |ts[0]| >= |lead| && ts[0][..|lead|] == lead
    requires ParsePoint(ts[0][|lead|..]) == Some(p) && ParsePoints(ts[1..], lead) == Some(ps)
    ensures ParsePoints(ts, lead) == Some([p] + ps)
  {
  }

  lemma TokensCons(lead: string, pts: seq<Coord>)
    requires pts != []
    ensures Tokens(lead, pts)[0] == lead + PointText(pts[0])
    ensures Tokens(lead, pts)[1..] == Tokens(lead, pts[1..])
  {
    var ts := Tokens(lead, pts);
    var us := Tokens(lead, pts[1..]);
    forall i | 0 <= i < |us|
      ensures ts[1..][i] == us[i]
    {
      assert pts[1..][i] == pts[i + 1];
    }
  }

  lemma TokensFree(lead: string, pts: seq<Coord>, sep: char)
    requires Free(lead, sep)
    requires sep != '-' && sep != ',' && !IsDigit(sep)
    ensures forall i :: 0 <= i < |pts| ==> Free(Tokens(lead, pts)[i], sep)
  {
    forall i | 0 <= i < |pts|
      ensures Free(Tokens(lead, pts)[i], sep)
    {
      PointTextFree(pts[i], sep);
    }
  }
}

=== FILE: vdom.dfy ===
/**
 * The virtual-DOM values the chart code builds: element tags with an
 * insertion-ordered attribute map, a child list and a hover-listener flag,
 * and text nodes.
 */
module VDom {
  import opened Results

  /** One attribute: its name and its value, both already converted to strings. */
  type Attr = (string, string)

  predicate UniqueKeys(a: seq<Attr>) {
    forall i, j :: 0 <= i < j < |a| ==> a[i].0 != a[j].0
  }

  /**
   * An attribute map in insertion order. Names never repeat: yew's attribute
   * container is a map, and so is the attribute map the markup parser hands over.
   */
  type Attributes = a: seq<Attr> | UniqueKeys(a) witness []

  /**
   * An element (`VTag`). `hover` records whether a mouse-over listener was
   * attached; the listener's payload belongs to the UI framework.
   */
  datatype Tag = Tag(name: string, attrs: Attributes, children: seq<Node>, hover: bool)

  /** A child of an element: another element or a text node (`VText`). */
  datatype Node = Element(tag: Tag) | TextNode(text: string)

  /** A fresh element with no attributes, children or listeners (`VTag::new`). */
  function NewTag(name: string): Tag {
    Tag(name, [], [], false)
  }

  function Keys(a: seq<Attr>): set<string> {
    set i | 0 <= i < |a| :: a[i].0
  }

  lemma KeysCons(a: seq<Attr>)
    requires a != []
    ensures Keys(a) == {a[0].0} + Keys(a[1..])
  {
    forall k | k in Keys(a)
      ensures k in {a[0].0} + Keys(a[1..])
    {
      var i :| 0 <= i < |a| && a[i].0 == k;
      if i > 0 {
        assert a[1..][i - 1].0 == k;
      }
    }
    forall k | k in Keys(a[1..])
      ensures k in Keys(a)
    {
      var i :| 0 <= i < |a[1..]| && a[1..][i].0 == k;
      assert a[i + 1].0 == k;
    }
  }

  /** The value stored under `key`, if any. */
  function Lookup(a: seq<Attr>, key: string): (r: Option<string>)
    decreases |a|
  {
    if a == [] then None
    else if a[0].0 == key then Some(a[0].1)
    else Lookup(a[1..], key)
  }

  /** In a map without repeated names, a lookup finds a value exactly when the pair is stored. */
  lemma {:induction false} LookupMember(a: Attributes, key: string, value: string)
    ensures Lookup(a, key) == Some(value) <==> (key, value) in a
    decreases |a|
  {
    if a != [] {
      LookupMember(a[1..], key, value);
      assert a == [a[0]] + a[1..];
    }
  }

  /** A lookup succeeds exactly for the stored names. */
  lemma {:induction false} LookupKeys(a: seq<Attr>, key: string)
    ensures Lookup(a, key).Some? <==> key in Keys(a)
    decreases |a|
  {
    if a != [] {
      KeysCons(a);
      LookupKeys(a[1..], key);
    }
  }

  /**
   * `VTag::add_attribute`: the value replaces an existing one in place, or
   * is appended under a new name.
   */
  function SetAttribute(a: Attributes, key: string, value: string): (r: Attributes)
    ensures Keys(r) == Keys(a) + {key}
    ensures key !in Keys(a) ==> r == a + [(key, value)]
    decreases |a|
  {
    if a == [] then
      assert Keys([(key, value)]) == {key} by {
        assert [(key, value)][0].0 == key;
      }
      [(key, value)]
    else if a[0].0 == key then
      KeysCons(a);
      KeysCons([(key, value)] + a[1..]);
      assert ([(key, value)] + a[1..])[1..] == a[1..];
      [(key, value)] + a[1..]
    else
      KeysCons(a);
      var rest := SetAttribute(a[1..], key, value);
      var r := [a[0]] + rest;
      assert r[1..] == rest;
      KeysCons(r);
      assert a[0].0 !in Keys(rest) by {
        forall j | 1 <= j < |a|
          ensures a[0].0 != a[j].0
        {
        }
      }
      assert UniqueKeys(r) by {
        forall i, j | 0 <= i < j < |r|
          ensures r[i].0 != r[j].0
        {
          if i == 0 {
            assert r[j] == rest[j - 1];
          }
        }
      }
      r
  }

  /** The map semantics of `SetAttribute`: the new value is found, every other name is untouched. */
  lemma {:induction false} SetAttributeLookup(a: Attributes, key: string, value: string, other: string)
    ensures Lookup(SetAttribute(a, key, value), key) == Some(value)
    ensures other != key ==> Lookup(SetAttribute(a, key, value), other) == Lookup(a, other)
    decreases |a|
  {
    if a != [] && a[0].0 != key {
      SetAttributeLookup(a[1..], key, value, other);
    }
  }

  /** `VTag::add_attributes`: each pair in turn, as by `add_attribute`. */
  function AddAttributes(a: Attributes, more: seq<Attr>): Attributes
    decreases |more|
  {
    if more == [] then a else AddAttributes(SetAttribute(a, more[0].0, more[0].1), more[1..])
  }

  /** Copying attributes under fresh names keeps them in the order they were given. */
  lemma {:induction false} AddAttributesKeepsOrder(a: Attributes, more: Attributes)
    requires Keys(a) !! Keys(more)
    ensures AddAttributes(a, more) == a + more
    decreases |more|
  {
    if more != [] {
      var tail: Attributes := UniqueTail(more);
      var a' := SetAttribute(a, more[0].0, more[0].1);
      assert AddAttributes(a, more) == AddAttributes(a', tail);
      assert a' == a + [more[0]] && Keys(a') !! Keys(tail) by {
        assert more[0].0 !in Keys(a);
      }
      AddAttributesKeepsOrder(a', tail);
      assert a + [more[0]] + tail == a + more by {
        assert [more[0]] + tail == more;
      }
    }
  }

  /** The rest of a map without repeated names repeats no name, and not the first one either. */
  lemma UniqueTail(a: Attributes) returns (tail: Attributes)
    requires a != []
    ensures tail == a[1..]
    ensures Keys(a) == {a[0].0} + Keys(tail) && a[0].0 !in Keys(tail)
  {
    KeysCons(a);
    tail := a[1..];
    forall k | k in Keys(tail)
      ensures k != a[0].0
    {
      var j :| 0 <= j < |tail| && tail[j].0 == k;
      assert a[j + 1] == tail[j];
    }
  }

  /** `VTag::add_child`: the node becomes the last child. */
  function AddChild(t: Tag, child: Node): (r: Tag)
    ensures r.name == t.name && r.attrs == t.attrs && r.hover == t.hover
    ensures |r.children| == |t.children| + 1
    ensures r.children[..|t.children|] == t.children && r.children[|t.children|] == child
  {
    t.(children := t.children + [child])
  }
}

=== FILE: views.dfy ===
/**
 * The two `ChartComponent::view` functions: each seeds the stack with a
 * synthetic `svg` root, runs the event-stream builder, and returns whatever
 * the final pop takes off the stack.
 */
module Views {
  import opened Results
  import opened TextFormat
  import opened VDom
  import opened EventTree

  /** The view loop followed by the final `stack.pop().unwrap()`. */
  function Render(cfg: Config, root: Tag, events: seq<Event>): (r: Result<Node, Fatal>)
    ensures r.Ok? <==> NeverUnderflows(events, 0)
    ensures r.Err? ==> r.error == EndPoppedRoot
    ensures Balanced(events) ==>
      && Items(cfg, events).Some?
      && r == Ok(Element(root.(children := root.children + Items(cfg, events).value.0)))
  {
    LoopOutcome(cfg, root, events);
    match Run(cfg, [root], events)
    case Err(e) => Err(e)
    case Ok(stack) => Ok(Element(stack[|stack| - 1]))
  }

  lemma LoopOutcome(cfg: Config, root: Tag, events: seq<Event>)
    ensures Run(cfg, [root], events).Ok? <==> NeverUnderflows(events, 0)
    ensures Run(cfg, [root], events).Err? ==> Run(cfg, [root], events).error == EndPoppedRoot
    ensures Balanced(events) ==>
      && Items(cfg, events).Some?
      && Run(cfg, [root], events) == Ok([root.(children := root.children + Items(cfg, events).value.0)])
  {
    RunAccounting(cfg, [root], events);
    if Balanced(events) {
      BalancedBuildsItems(cfg, root, events);
    }
  }

  // ---------------------------------------------------------------------
  // chart.rs
  // ---------------------------------------------------------------------

  /** The `chart.rs` component properties the view reads (all `isize`). */
  datatype ChartProps = ChartProps(width: int, height: int, minX: int, minY: int, hasHoverCallback: bool)

  /** Start-tag attributes are sorted; listeners only when an `on_hover` callback was given. */
  function ChartConfig(p: ChartProps): Config {
    Config(true, p.hasHoverCallback)
  }

  /** `"{min_x} {min_y} {width} {height}"`. */
  function ViewBox(p: ChartProps): string {
    Join([Decimal(p.minX), Decimal(p.minY), Decimal(p.width), Decimal(p.height)], ' ')
  }

  /** The synthetic root: it fills its container and maps the chart's coordinates onto it. */
  function ChartRoot(p: ChartProps): Tag {
    var a1 := SetAttribute([], "width", "100%");
    var a2 := SetAttribute(a1, "height", "100%");
    var a3 := SetAttribute(a2, "viewBox", ViewBox(p));
    var a4 := SetAttribute(a3, "preserveAspectRatio", "none");
    NewTag("svg").(attrs := a4)
  }

  /** `ChartComponent::view` in `chart.rs`. */
  function ChartView(p: ChartProps, events: seq<Event>): Result<Node, Fatal> {
    Render(ChartConfig(p), ChartRoot(p), events)
  }

  /**
   * The root is an `svg` element with no children or listener and exactly
   * four attributes: full width, full height, the view box and a disabled
   * aspect ratio.
   */
  lemma ChartRootAttributes(p: ChartProps)
    ensures ChartRoot(p).name == "svg" && ChartRoot(p).children == [] && !ChartRoot(p).hover
    ensures Keys(ChartRoot(p).attrs) == {"width", "height", "viewBox", "preserveAspectRatio"}
    ensures Lookup(ChartRoot(p).attrs, "width") == Some("100%")
    ensures Lookup(ChartRoot(p).attrs, "height") == Some("100%")
    ensures Lookup(ChartRoot(p).attrs, "viewBox") == Some(ViewBox(p))
    ensures Lookup(ChartRoot(p).attrs, "preserveAspectRatio") == Some("none")
  {
    assert |"width"| == 5 && |"height"| == 6 && |"viewBox"| == 7 && |"preserveAspectRatio"| == 19;
    SetFour("width", "100%", "height", "100%", "viewBox", ViewBox(p), "preserveAspectRatio", "none");
  }

  /** Four different names set on an empty map are the map's names, and each reads back its value. */
  lemma SetFour(k1: string, v1: string, k2: string, v2: string, k3: string, v3: string, k4: string, v4: string)
    requires k1 != k2 && k1 != k3 && k1 != k4 && k2 != k3 && k2 != k4 && k3 != k4
    ensures var r := SetAttribute(SetAttribute(SetAttribute(SetAttribute([], k1, v1), k2, v2), k3, v3), k4, v4);
      && Keys(r) == {k1, k2, k3, k4}
      && Lookup(r, k1) == Some(v1) && Lookup(r, k2) == Some(v2)
      && Lookup(r, k3) == Some(v3) && Lookup(r, k4) == Some(v4)
  {
    var a1 := SetAttribute([], k1, v1);
    var a2 := SetAttribute(a1, k2, v2);
    var a3 := SetAttribute(a2, k3, v3);
    assert Keys([]) == {};
    SetTwo(k1, v1, k2, v2);
    SetAttributeLookup(a2, k3, v3, k1);
    SetAttributeLookup(a2, k3, v3, k2);
    SetAttributeLookup(a3, k4, v4, k1);
    SetAttributeLookup(a3, k4, v4, k2);
    SetAttributeLookup(a3, k4, v4, k3);
  }

  /** Two different names set on an empty map are the map's names, and each reads back its value. */
  lemma SetTwo(k1: string, v1: string, k2: string, v2: string)
    requires k1 != k2
    ensures var r := SetAttribute(SetAttribute([], k1, v1), k2, v2);
      && Keys(r) == {k1, k2}
      && Lookup(r, k1) == Some(v1) && Lookup(r, k2) == Some(v2)
  {
    var a1 := SetAttribute([], k1, v1);
    assert Keys([]) == {};
    SetAttributeLookup([], k1, v1, k1);
    SetAttributeLookup(a1, k2, v2, k1);
  }

  /** The view box reads back as the four numbers it was written from, in order. */
  lemma ViewBoxReadsBack(p: ChartProps)
    ensures |Split(ViewBox(p), ' ')| == 4
    ensures ParseDecimal(Split(ViewBox(p), ' ')[0]) == Some(p.minX)
    ensures ParseDecimal(Split(ViewBox(p), ' ')[1]) == Some(p.minY)
    ensures ParseDecimal(Split(ViewBox(p), ' ')[2]) == Some(p.width)
    ensures ParseDecimal(Split(ViewBox(p), ' ')[3]) == Some(p.height)
  {
    var parts := [Decimal(p.minX), Decimal(p.minY), Decimal(p.width), Decimal(p.height)];
    DecimalFree(p.minX, ' ');
    DecimalFree(p.minY, ' ');
    DecimalFree(p.width, ' ');
    DecimalFree(p.height, ' ');
    SplitJoin(parts, ' ');
    DecimalRoundTrip(p.minX);
    DecimalRoundTrip(p.minY);
    DecimalRoundTrip(p.width);
    DecimalRoundTrip(p.height);
  }

  /**
   * In the `chart.rs` tree every hover listener sits on a `scatter-point`
   * element, and there are none at all without an `on_hover` callback.
   */
  lemma ChartListenersOnlyOnScatterPoints(p: ChartProps, events: seq<Event>)
    requires ChartView(p, events).Ok?
    ensures NodeListenersJustified(ChartConfig(p), ChartView(p, events).value)
  {
    RenderKeepsListenersJustified(ChartConfig(p), ChartRoot(p), events);
  }

  lemma RenderKeepsListenersJustified(cfg: Config, root: Tag, events: seq<Event>)
    requires root.children == [] && !root.hover
    requires Render(cfg, root, events).Ok?
    ensures NodeListenersJustified(cfg, Render(cfg, root, events).value)
  {
    assert StackListenersJustified(cfg, [root]);
    RunKeepsListenersJustified(cfg, [root], events);
    var stack := Run(cfg, [root], events).value;
    assert Render(cfg, root, events) == Ok(Element(stack[|stack| - 1]));
  }

  /**
   * The final pop takes the top of the stack, not the root: a stream that
   * never closes the root but leaves elements open returns the innermost
   * open element, which sits `Depth(events)` entries above the root, and
   * drops the root.
   */
  lemma UnclosedStreamReturnsInnermost(cfg: Config, root: Tag, events: seq<Event>)
    requires NeverUnderflows(events, 0) && Depth(events) > 0
    ensures Run(cfg, [root], events).Ok?
    ensures var s := Run(cfg, [root], events).value;
      && |s| == 1 + Depth(events) && |s| >= 2
      && Render(cfg, root, events) == Ok(Element(s[|s| - 1]))
  {
    RunAccounting(cfg, [root], events);
  }

  // ---------------------------------------------------------------------
  // lib.rs
  // ---------------------------------------------------------------------

  /** The width and height `create` fixes for the `lib.rs` component. */
  const LibWidth: int := 800
  const LibHeight: int := 600

  /** No sorting and no listeners. */
  const LibConfig: Config := Config(false, false)

  /** The synthetic root: an `svg` of the component's fixed size, with no view box. */
  function LibRoot(): Tag {
    var a1 := SetAttribute([], "width", Decimal(LibWidth));
    var a2 := SetAttribute(a1, "height", Decimal(LibHeight));
    NewTag("svg").(attrs := a2)
  }

  /** `ChartComponent::view` in `lib.rs`. */
  function LibView(events: seq<Event>): Result<Node, Fatal> {
    Render(LibConfig, LibRoot(), events)
  }

  /** The root carries only the width and height, which read back as 800 and 600. */
  lemma LibRootAttributes()
    ensures LibRoot().name == "svg" && LibRoot().children == [] && !LibRoot().hover
    ensures Keys(LibRoot().attrs) == {"width", "height"} && Lookup(LibRoot().attrs, "viewBox") == None
    ensures Lookup(LibRoot().attrs, "width").Some? && ParseDecimal(Lookup(LibRoot().attrs, "width").value) == Some(800)
    ensures Lookup(LibRoot().attrs, "height").Some? && ParseDecimal(Lookup(LibRoot().attrs, "height").value) == Some(600)
  {
    var a := LibRoot().attrs;
    assert |"width"| == 5 && |"height"| == 6 && |"viewBox"| == 7;
    SetTwo("width", Decimal(LibWidth), "height", Decimal(LibHeight));
    LookupKeys(a, "viewBox");
    DecimalRoundTrip(LibWidth);
    DecimalRoundTrip(LibHeight);
  }

  /** Start tags in the `lib.rs` view keep their attributes in arrival order. */
  lemma LibKeepsArrivalOrder(name: string, attrs: Attributes)
    ensures OpenTag(LibConfig, name, attrs).attrs == attrs
    ensures !OpenTag(LibConfig, name, attrs).hover
  {
  }

  /** The `lib.rs` tree carries no listener anywhere. */
  lemma LibHasNoListeners(events: seq<Event>)
    requires LibView(events).Ok?
    ensures NodeListenersJustified(LibConfig, LibView(events).value)
    ensures !LibView(events).value.tag.hover
  {
    RenderKeepsListenersJustified(LibConfig, LibRoot(), events);
  }
}
